=== FILE: README.md ===
# Lo-runner core, modelled in Dafny

Lo-runner is the execution core of an online judge, written as a C extension
for Python. `run()` starts a submitted program in a child process with
redirected standard streams, resource limits (`setResLimit`), an optional user
switch and optional system-call tracing. It then watches the child until it
ends, either with one `wait4` (`waitExit`) or with a `ptrace` loop that checks
every second system-call stop against an access policy (`traceLoop`). The
result is a record: a verdict (AC, TLE, MLE or RE), CPU time in ms, peak memory,
and the signal, system call or file that caused a runtime error. `compileit`
and `special_judge` start a compiler or a checker program in the same way and
turn its wait status into either nothing (success) or a short message. `initRun`
checks the request dictionary and fills the request record.

The model treats every system call as an input. The kernel's answer to each
child set-up call is a predicate `Call -> bool`. Each `wait4` answer is a value.
A traced run is a finite stream of stops. `checkAccess`, `lastFileAccess` and
the register reads are fields of each stop. The page size is a parameter. A
child's set-up is a plan: a sequence of calls, each paired with the message left
behind if it fails. `Kernel.Perform` carries out a plan and stops at the first
refusal.

Modules, one per source concern:

- `WaitStatus`: the glibc wait-status macros on 16-bit statuses.
- `CInt`: C's truncating `/` and `%`.
- `Kernel`: system calls as data, plans, `rusage`, and a bounded `read`.
- `Lorun`: the request record (`struct Runobj`) and `initRun`.
- `Limit`: `setResLimit`.
- `Judge`: the time formula and the two verdict switches that `waitExit` and `traceLoop` share.
- `CBuffer`: `strcpy` and `read` into a `char` array, and the C string a reader then sees.
- `Run`: `struct Result`, `waitExit`, `traceLoop` and `runit`.
- `Capture`: the child that `compileit` and `special_judge` share.
- `Compile`: `compileit`.
- `Special`: `special_judge`.

The code is imperative, and so is the model. `Lorun.Runobj` and
`Run.RunResult` are classes whose methods assign fields in place. `TraceLoop`
is a `while` loop over the stops. `CompileIt` and `SpecialJudge` fill a
freshly allocated `char` array. Each method is proved equal to a specification
function of the old state and the inputs (`InitRunSpec`, `WaitExitSpec`,
`TraceSpec`, `RunitSpec`, `CompileSpec`, `SpecialSpec`, `Perform` of a plan).
The lemmas state what the source promises about those functions.

Details of the code that are easy to misread:

- The CPU soft limit is `time_limit/1000 + 1` seconds, plus one more second when the remainder is above 800 ms. For a non-negative limit this is the time limit plus 200 ms, rounded up to whole seconds (`Limit.CpuLimit`). It is not `ceil(time_limit/1000)`: limit.c:43-47.
- The data limit is the memory limit times 1024 bytes. Its hard limit is 1024 bytes higher, not one megabyte higher: limit.c:52-53 and 57-58.
- The fixed messages are exactly `"Compile-time error\n"` and `"special error\n"`. Both choose the fixed message from the terminating signal alone; `special_judge`'s `status == 256` branch gives the same text as its default branch (`Special.ExitOneTestRedundant`). A non-zero exit code always gets the captured text: compile.c:63-75 and special.c:63-81.
- On the path where an access is refused, memory is `ru_maxrss * (pagesize/1024)`. On every other path it is `ru_maxrss`. The model keeps this inconsistency: run.c:91-92 against run.c:55, 118 and 145.

## Model

| member | source | states |
|---|---|---|
| CInt.Div | lorun/cext/limit.c:43-44 | C division truncates toward zero: the remainder takes the dividend's sign and is smaller than the divisor |
| CInt.Mod | lorun/cext/limit.c:44 | `a == b*(a/b) + a%b`, with the remainder's sign that of `a` |
| WaitStatus.DecodeExited | lorun/cext/run.c:44 | an exit status decodes as exited with its code; it is neither signalled nor stopped |
| WaitStatus.DecodeKilled | lorun/cext/run.c:148-150 | a death by signal decodes as signalled with that signal; it is not exited, and its WSTOPSIG is 0 |
| WaitStatus.DecodeStopped | lorun/cext/run.c:46 | a stop decodes as stopped with its signal and is not an exit |
| WaitStatus.ExitOneIs256 | lorun/cext/special.c:65 | status 256 is exactly "exited with code 1" among statuses with a zero low byte |
| Kernel.PerformStopsAtFirstRefusal | lorun/cext/limit.c:48-92 | the calls made are a prefix of the plan; every call but the last succeeded; the run fails exactly when a call is refused, and then with that call's message |
| Kernel.PerformAppend | lorun/cext/run.c:203-232 | carrying out two plans in sequence starts the second only when the first went through |
| Kernel.FailureFits | lorun/cext/run.c:236-243 | if every message of a plan fits n bytes and has no NUL, so does the failure the plan can report |
| Kernel.Read | lorun/cext/run.c:239 | `read` returns min(n, available) bytes, a prefix of what the pipe holds |
| Lorun.InitRunAccepts | lorun/cext/lorun.c:26-91 | a request is accepted exactly when it is a dict with convertible `args`, `timelimit`, `memorylimit` and, when trace is True, a convertible `calls` list and a `files` dict |
| Lorun.ArgsCheckedFirst | lorun/cext/lorun.c:36-37 | a missing `args` is reported first, and nothing is written |
| Lorun.TimeLimitCheckedBeforeMemoryLimit | lorun/cext/lorun.c:55-61 | a missing `timelimit` is reported before a missing `memorylimit` |
| Lorun.InitRunFields | lorun/cext/lorun.c:42-88 | on success, absent fds and runner are -1; the limits come from their keys; trace is on only for True, and then the call table and files are set |
| Lorun.TraceErrorsInOrder | lorun/cext/lorun.c:72-82 | with trace on, a missing `calls`, a non-list `calls`, a missing `files` and a non-dict `files` each give their own message, in that order |
| Lorun.Runobj.constructor | lorun/cext/lorun.c:109 | a fresh request record is all zero |
| Lorun.Runobj.InitRun | lorun/cext/lorun.c:26-91 | the record and the error after initRun are those of `InitRunSpec`, with fields written before an error kept |
| Lorun.Runobj.InitLimits | lorun/cext/lorun.c:42-66 | the descriptors, limits and runner are assigned in source order, with early errors |
| Lorun.Runobj.InitTrace | lorun/cext/lorun.c:68-88 | the trace flag, call table and files are assigned in source order, with early errors |
| Limit.CpuLimit | lorun/cext/limit.c:43-47 | hard = soft + 1; soft·1000 > time limit; for t ≥ 0, soft is the least whole number of seconds covering t + 200 ms |
| Limit.CpuLimitExamples | lorun/cext/limit.c:43-47 | 1000 ms and 1800 ms give 2 s; 1801 ms and 1900 ms give 3 s; the watchdog for 1000 ms is 3 s |
| Limit.DataLimit | lorun/cext/limit.c:52-53 | soft = memory limit × 1024 bytes, hard = soft + 1024 |
| Limit.AddressSpaceLimit | lorun/cext/limit.c:57-58 | soft is twice the data soft limit, hard = soft + 1024 |
| Limit.StackLimit | lorun/cext/limit.c:63-64 | soft = 268435456 whatever the request, hard = soft + 1024 |
| Limit.Watchdog | lorun/cext/limit.c:86-88 | interval equals initial value, 0 µs; for t ≥ 0 the interval is exactly t/1000 + 2 whole seconds (more than t + 1000 ms, at most t + 2000 ms) |
| Limit.WatchdogAfterCpuLimit | lorun/cext/limit.c:86-88 | the wall-clock timer is never shorter than the CPU soft limit |
| Limit.LimitMessagesFit | lorun/cext/limit.c:48-90 | every setResLimit message is a non-empty C string of at most 24 characters |
| Limit.SetResLimit | lorun/cext/limit.c:26-93 | the calls made and `last_limit_err` are those of the CPU, DATA, AS, STACK, ITIMER plan stopped at the first refusal; it returns 0 exactly when no error is set, and otherwise -1 |
| Judge.TimeUsed | lorun/cext/run.c:141-144 | time_used in ms is at most the exact CPU time and less than 2 ms below it |
| Judge.TruncationPerPart | lorun/cext/run.c:141-144 | truncating the two µs parts separately can lose a millisecond compared with truncating their sum |
| Judge.SignalVerdict | lorun/cext/run.c:150-164 | TLE iff SIGALRM or SIGXCPU; MLE iff SIGSEGV over the memory limit; RE otherwise; never AC |
| Judge.ExitVerdict | lorun/cext/run.c:169-174 | TLE iff time over the limit; MLE iff time within and memory over; AC iff both within (strict comparisons); never RE |
| Judge.ExitVerdictMonotone | lorun/cext/run.c:169-174 | raising a limit never turns AC into a failure |
| CBuffer.CString | lorun/cext/run.c:243 | the string read from a buffer is the prefix before the first NUL |
| CBuffer.CStringOfTerminated | lorun/cext/run.c:243 | a NUL-free text followed by a terminator reads back as itself |
| CBuffer.Strcpy | lorun/cext/compile.c:18-21 | the buffer holds the text, then a NUL; the rest of the buffer is untouched |
| CBuffer.ReadInto | lorun/cext/compile.c:73 | the count returned is that of `read`, the bytes read sit at the front of the buffer, and the rest is untouched |
| Run.RunResult.constructor | lorun/cext/lorun.c:110-111 | a fresh result is zeroed, has no verdict and has re_call = -1 |
| Run.WaitExit | lorun/cext/run.c:132-178 | the result and return of waitExit are those of `WaitExitSpec`; a wait4 failure gives "wait4 failure" and leaves the record alone |
| Run.WaitExitTable | lorun/cext/run.c:141-174 | the verdict table of waitExit: a verdict is always written, with both directions of each of AC, TLE, MLE and RE; time and memory always recorded; re_signum only on signal death; nothing else changes |
| Run.TraceLoop | lorun/cext/run.c:34-129 | the result and return of traceLoop are those of `TraceSpec` with incall starting at 0 |
| Run.UncheckedAnswersIgnored | lorun/cext/run.c:81-107 | what checkAccess would answer on unchecked traps never changes the outcome |
| Run.AllowedTrapsSkipped | lorun/cext/run.c:81-110 | allowed traps only toggle incall; the loop then behaves as on the remaining stops |
| Run.DeniedOnCheckedTrap | lorun/cext/run.c:83-102 | the first refusal on a checked trap ends the loop with RE and the denial fields (re_call or re_file and re_file_flag, memory scaled by the page size) |
| Run.FirstTrapNotChecked | lorun/cext/run.c:35 | incall starts at 0, so the first trap is not checked and only flips incall |
| Run.TraceEndsForGood | lorun/cext/run.c:46-75 | once the loop returns, no later stop is looked at |
| Run.TraceWrites | lorun/cext/run.c:34-129 | a verdict is written exactly when the loop returns 0; re_call changes only with RE, re_file only with RE, re_signum only when the loop returns 0 on a stop by a signal other than SIGTRAP, to that signal with its verdict, and a failure leaves the record alone |
| Run.TracedKillReportsSignalZero | lorun/cext/run.c:46-73 | a traced child killed outright is recorded as RE with re_signum 0, because WSTOPSIG of such a status is 0 |
| Run.RedirectsFit | lorun/cext/run.c:203-214 | the redirect messages are non-empty C strings that fit the 90-byte read |
| Run.LaunchFits | lorun/cext/run.c:220-232 | the setuid, TRACEME and execvp messages are non-empty C strings that fit the 90-byte read |
| Run.RunChildMessagesFit | lorun/cext/run.c:236-243 | every message runit's child can write fits the parent's 90-byte read and has no NUL |
| Run.Redirect | lorun/cext/run.c:203-214 | the stdin, stdout and stderr redirects, each skipped at fd -1, stop at the first failure with its message |
| Run.DropAndExec | lorun/cext/run.c:220-232 | setuid unless runner is -1, TRACEME only when tracing, then execvp, stopping at the first failure |
| Run.RunChild | lorun/cext/run.c:196-232 | the child's calls and message are those of the redirect, setResLimit and launch plans carried out in order, stopping at the first refusal |
| Run.PipeMessage | lorun/cext/run.c:236-241 | the parent reads nothing after a successful execvp, and otherwise exactly the first min(90, length) bytes of the child's message |
| Run.ReadErrorPipe | lorun/cext/run.c:234-245 | the string raised from the zeroed 100-byte buffer is exactly what the parent read from the pipe |
| Run.Runit | lorun/cext/run.c:180-257 | the result, return and child calls of runit are those of `RunitSpec` |
| Run.RunitSetupFailure | lorun/cext/run.c:184-245 | a failed pipe2, vfork or child step raises exactly that step's message and leaves the result alone |
| Run.RunitMonitors | lorun/cext/run.c:248-255 | when every child step succeeds, trace alone chooses traceLoop or waitExit |
| Run.RunitResult | lorun/cext/lorun.c:109-124 | run() returns a record exactly when runit returns 0, and it then holds a verdict; re_call stays -1 unless a refused syscall was recorded under tracing, with RE |
| Capture.CapturePlanShape | lorun/cext/compile.c:33-49 | the child redirects one descriptor, first; it never asks to be traced; it ends with execvp |
| Capture.CaptureChild | lorun/cext/compile.c:33-49 | the calls and message of the compiler's or checker's child are those of its plan, stopping at the first refusal |
| Compile.CompileSpec | lorun/cext/compile.c:11-82 | every message is at most 1000 characters |
| Compile.CompileIt | lorun/cext/compile.c:11-82 | NULL exactly when the spec says None; otherwise a fresh 1010-byte buffer with the message and a terminator in bounds |
| Compile.CompileSucceedsIff | lorun/cext/compile.c:63-80 | NULL exactly when pipe, vfork and wait4 succeed and the status is 0 |
| Compile.CompileKilledByLimit | lorun/cext/compile.c:64-70 | death by SIGSEGV, SIGALRM or SIGXCPU gives exactly "Compile-time error\n" |
| Compile.CompileExitNonZero | lorun/cext/compile.c:71-75 | a non-zero exit code gives the first 1000 bytes of captured stderr |
| Compile.CompileMessageReadsBack | lorun/cext/lorun.c:166-167 | the string Python receives is the message itself when the captured text has no NUL |
| Special.SpecialSpec | lorun/cext/special.c:11-88 | every message is at most 100 characters |
| Special.SpecialJudge | lorun/cext/special.c:11-88 | NULL exactly when the spec says None; otherwise a fresh 110-byte buffer with the message and a terminator in bounds |
| Special.SpecialAcceptsIff | lorun/cext/special.c:63-86 | NULL exactly when pipe, vfork and wait4 succeed and the status is 0 |
| Special.SpecialExitOne | lorun/cext/special.c:65-69 | exit code 1 gives the first 100 bytes of the checker's output |
| Special.SpecialKilledByLimit | lorun/cext/special.c:70-76 | death by SIGSEGV, SIGALRM or SIGXCPU gives exactly "special error\n" |
| Special.ExitOneTestRedundant | lorun/cext/special.c:65-81 | every non-zero exit code gives the same result as status 256, so the status-256 test adds nothing to the switch's default branch |
| Special.SameClassificationAsCompile | lorun/cext/special.c:63-84 | the special judge and compileit agree on success and on limit signals; elsewhere the special judge's text is a prefix of compileit's |

## Left out

- Real system calls (`vfork`, `pipe`/`pipe2`, `dup2`, `setrlimit`, `setitimer`, `setuid`, `ptrace`, `wait4`/`waitpid`, `execvp`, `sysconf`, `close`) are inputs. The `PTRACE_KILL`, `PTRACE_SYSCALL` and reaping calls of `traceLoop`, and the `waitpid(WNOHANG)` in `runit`, have no modelled effect.
- `checkAccess`, `lastFileAccess`, `REG_SYS_CALL` and `REG_ARG_2` come from access.h, which is not part of this model. Their answers are fields of each trace event.
- `genRunArgs` and `initCalls` come from convert.h, which is not part of this model. They are parameters (`Lorun.Converters`).
- `PyArg_ParseTuple` in `initRun` is left out; the model starts from the unpacked argument. A `PyLong_AsLong` failure is modelled only as its -1 result, not as the pending Python exception.
- `genResult`, the `check` function with `checkDiff` (diff.h, not part of this model), the `run`/`compile` wrappers beyond the result record's initial value, and module initialisation are Python marshalling or foreign code.
- demo/spj.py is an I/O-only demonstration script.
- Run.TraceLoop: the stops are a finite sequence; when they run out the model returns `Waiting`, where the real `wait4` would block.
- Run.Runit: the child's message is assumed written whole; a partial `write` is not modelled. The parent's `read` is assumed to return the first min(90, length) bytes of the pending message, or nothing when the child wrote none.
- Kernel.Read: a `read` that returns -1 or fewer bytes than are available is not modelled. For `compileit` and `special_judge`, -1 would index the buffer at -1.
- Capture.CaptureChild: in `compileit` and `special_judge`, a failing child step returns from the vforked child, which is undefined behaviour. The model records only the calls attempted and the message copied. The parent's result depends only on the wait status and the captured output.
- C integer widths: `long`, `rlim_t`, `time_t` and `int` overflow and conversions are not modelled; all arithmetic is on unbounded integers, with C's truncating division written out.
- Run.Fresh: `struct Result rst = {0}` sets `judge_result` to 0 in C; the model writes that initial value as `None`, which is never returned, since every return of 0 writes a verdict (`Run.RunitResult`).
- Timing, signal delivery, process concurrency, and a child blocking on a full pipe.

=== FILE: capture.dfy ===
/**
 * What compileit and special_judge have in common: a child whose output on
 * one descriptor goes to a pipe, and a parent that waits for it and then
 * reads what it wrote.
 */
module Capture {
  import opened Wrappers
  import opened WaitStatus
  import opened Kernel
  import opened Lorun
  import opened Limit

  /**
   * What the two routines depend on besides the request: whether pipe and
   * vfork succeed, the pipe's write end, which of the child's calls the kernel
   * accepts, what wait4 returns, and what the child wrote to the pipe.
   */
  datatype CaptureEnv = CaptureEnv(pipeOk: bool, forkOk: bool, pipeWrite: int, kernel: Call -> bool,
                                   wait: WaitResult, captured: seq<char>)

  /** The signals that mean a resource limit was hit: SIGSEGV, SIGALRM and SIGXCPU. */
  predicate LimitSignal(sig: int)
  {
    sig == SIGSEGV || sig == SIGALRM || sig == SIGXCPU
  }

  /**
   * The child's set-up: the pipe onto descriptor `target`, setResLimit,
   * setuid unless runner is -1, execvp. The dup2 message is the same for
   * both routines, whichever descriptor is redirected.
   */
  function CapturePlan(obj: Config, pipeWrite: int, target: int): seq<Step>
  {
    [Step(Dup2(pipeWrite, target), "dup2 stderr failure!")] + LimitPlan(obj) +
    Opt(obj.runner != -1, Step(SetUid(obj.runner), "setuid failure")) +
    [Step(Execvp(obj.args), "execvp failure")]
  }

  /**
   * Unlike runit's child, this one redirects a single descriptor, first,
   * never asks to be traced, and always ends with execvp.
   */
  lemma CapturePlanShape(obj: Config, pipeWrite: int, target: int)
    ensures var plan := CapturePlan(obj, pipeWrite, target);
      0 < |plan| && plan[0].call == Dup2(pipeWrite, target) &&
      plan[|plan| - 1].call == Execvp(obj.args) &&
      (forall i :: 0 <= i < |plan| ==> plan[i].call != TraceMe) &&
      (forall i :: 0 < i < |plan| ==> !plan[i].call.Dup2?)
  {
    var plan := CapturePlan(obj, pipeWrite, target);
    var lp := LimitPlan(obj);
    var u := Opt(obj.runner != -1, Step(SetUid(obj.runner), "setuid failure"));
    forall i | 0 < i < |plan| ensures plan[i].call != TraceMe && !plan[i].call.Dup2? {
      if i <= |lp| {
        assert plan[i] == lp[i - 1];
      } else if i < |plan| - 1 {
        assert plan[i] == u[i - 1 - |lp|];
      }
    }
  }

  /**
   * The child up to execvp. `err` is what the child copies into the shared
   * buffer when a step fails; what the vforked child does after that is not
   * part of this model.
   */
  method CaptureChild(obj: Config, pipeWrite: int, target: int, ok: Call -> bool)
    returns (calls: seq<Call>, err: Option<string>)
    ensures Outcome(calls, err) == Perform(CapturePlan(obj, pipeWrite, target), ok)
  {
    var head := [Step(Dup2(pipeWrite, target), "dup2 stderr failure!")];
    var s5 := Step(SetUid(obj.runner), "setuid failure");
    var s7 := Step(Execvp(obj.args), "execvp failure");
    var tail := Opt(obj.runner != -1, s5) + [s7];
    assert CapturePlan(obj, pipeWrite, target) == head + LimitPlan(obj) + tail;
    PerformAppend(head + LimitPlan(obj), tail, ok);
    PerformAppend(head, LimitPlan(obj), ok);
    PerformCons(head[0], [], ok);
    PerformOpt(obj.runner != -1, s5, [s7], ok);
    PerformCons(s7, [], ok);
    assert head == [head[0]] + [];
    assert [s7] == [s7] + [];

    calls := [Dup2(pipeWrite, target)];
    if !ok(Dup2(pipeWrite, target)) {
      return calls, Some("dup2 stderr failure!");
    }
    var rc, lastLimitErr, limitCalls := SetResLimit(obj, ok);
    AfterAfter(calls, limitCalls, Perform(tail, ok));
    calls := calls + limitCalls;
    if rc == -1 {
      return calls, lastLimitErr;
    }
    if obj.runner != -1 {
      calls := calls + [SetUid(obj.runner)];
      if !ok(SetUid(obj.runner)) {
        return calls, Some("setuid failure");
      }
    }
    calls := calls + [Execvp(obj.args)];
    if !ok(Execvp(obj.args)) {
      return calls, Some("execvp failure");
    }
    return calls, None;
  }
}

=== FILE: cbuffer.dfy ===
/**
 * The character buffers of the runner: strcpy into a buffer, read(2) from a
 * pipe into one, and the C string a reader of the buffer then sees.
 */
module CBuffer {
  import opened Kernel

  /** What a C reader of `b` sees: everything before the first NUL, or all of `b`. */
  function CString(b: seq<char>): (s: seq<char>)
    ensures s <= b && '\0' !in s
    ensures |s| < |b| ==> b[|s|] == '\0'
  {
    if b == [] || b[0] == '\0' then [] else [b[0]] + CString(b[1..])
  }

  /** A NUL-free string followed by a terminator reads back as itself. */
  lemma {:induction false} CStringOfTerminated(b: seq<char>, d: seq<char>)
    requires |d| < |b| && b[..|d|] == d && b[|d|] == '\0' && '\0' !in d
    ensures CString(b) == d
  {
    if d != [] {
      assert b[0] == d[0];
      assert b[1..][..|d| - 1] == d[1..];
      CStringOfTerminated(b[1..], d[1..]);
    }
  }

  /** strcpy(buf, s): the characters of `s`, then the terminator; the rest of `buf` untouched. */
  method Strcpy(buf: array<char>, s: string)
    requires |s| < buf.Length && '\0' !in s
    modifies buf
    ensures buf[..|s|] == s && buf[|s|] == '\0'
    ensures buf[|s| + 1..] == old(buf[|s| + 1..])
    ensures CString(buf[..]) == s
  {
    for i := 0 to |s|
      invariant buf[..i] == s[..i]
      invariant buf[i..] == old(buf[i..])
    {
      buf[i] := s[i];
    }
    buf[|s|] := '\0';
    CStringOfTerminated(buf[..], s);
  }

  /**
   * read(fd, buf, n) on a pipe holding `pending`: returns the count and
   * leaves the bytes at the front of `buf`, the rest of `buf` untouched.
   */
  method ReadInto(buf: array<char>, pending: seq<char>, n: nat) returns (r: int)
    requires n <= buf.Length
    modifies buf
    ensures 0 <= r <= n && r == |Read(pending, n)|
    ensures buf[..r] == Read(pending, n)
    ensures buf[r..] == old(buf[r..])
  {
    var got := Read(pending, n);
    r := |got|;
    for i := 0 to r
      invariant buf[..i] == got[..i]
      invariant buf[i..] == old(buf[i..])
    {
      buf[i] := got[i];
    }
  }
}

=== FILE: cint.dfy ===
/**
 * C integer division and remainder. Dafny's `/` and `%` are Euclidean; C's
 * truncate toward zero, which differs for negative dividends.
 */
module CInt {

  /** `a / b` as C computes it for a positive divisor: rounded toward zero. */
  function Div(a: int, b: int): (q: int)
    requires b > 0
    ensures 0 <= a ==> 0 <= q && 0 <= a - b * q < b
    ensures a < 0 ==> q <= 0 && -b < a - b * q <= 0
  {
    if a >= 0 then
      EuclidParts(a, b);
      a / b
    else
      EuclidParts(-a, b);
      -((-a) / b)
  }

  lemma EuclidParts(x: int, b: int)
    requires x >= 0 && b > 0
    ensures x == b * (x / b) + x % b && 0 <= x % b < b && 0 <= x / b
  {
  }

  /** `a % b` as C computes it: the remainder takes the sign of `a`. */
  function Mod(a: int, b: int): (r: int)
    requires b > 0
    ensures a == b * Div(a, b) + r
    ensures 0 <= a ==> 0 <= r < b
    ensures a < 0 ==> -b < r <= 0
  {
    a - b * Div(a, b)
  }

  function Min(a: int, b: int): (m: int)
    ensures m <= a && m <= b && (m == a || m == b)
  {
    if a <= b then a else b
  }
}

=== FILE: compile.dfy ===
/**
 * compileit: run the compiler with stderr captured, and turn its wait
 * status into either nothing (success) or a message for the user.
 */
module Compile {
  import opened Wrappers
  import opened WaitStatus
  import opened Kernel
  import opened Lorun
  import opened CBuffer
  import opened Capture

  /** The malloc'd buffer, and the most the parent reads into it. */
  const BufferSize := 1010
  const ReadMax := 1000

  const STDERR_FILENO := 2

  /**
   * The message compileit leaves in its buffer, or None for NULL. A failed
   * pipe, vfork or wait4 gives a fixed message; a non-zero status gives the
   * fixed "Compile-time error\n" for a limit signal and otherwise the first
   * bytes of what the compiler wrote to stderr.
   */
  function CompileSpec(comobj: Config, env: CaptureEnv): (msg: Option<string>)
    ensures msg.Some? ==> |msg.value| <= ReadMax
  {
    if !env.pipeOk then Some("compile: pip(fd_err) failure")
    else if !env.forkOk then Some("compile : vfork failure")
    else if env.wait.WaitFailed? then Some("wait4 failure")
    else
      var status := env.wait.status;
      if status != 0 || IfSignaled(status) then
        if LimitSignal(TermSig(status)) then Some("Compile-time error\n")
        else Some(Read(env.captured, ReadMax))
      else None
  }

  /**
   * compileit. Returns null for NULL; otherwise a fresh 1010-byte buffer
   * holding the message and a terminator after it (the read count is at most
   * 1000, so the terminator's index is in bounds). `childCalls` are the calls
   * of the compiler's child.
   */
  method CompileIt(comobj: Config, env: CaptureEnv) returns (errbuffer: array?<char>, childCalls: seq<Call>)
    ensures errbuffer == null <==> CompileSpec(comobj, env).None?
    ensures errbuffer != null ==>
      fresh(errbuffer) && errbuffer.Length == BufferSize &&
      var m := CompileSpec(comobj, env).value;
      errbuffer[..|m|] == m && errbuffer[|m|] == '\0'
    ensures childCalls == if env.pipeOk && env.forkOk
      then Perform(CapturePlan(comobj, env.pipeWrite, STDERR_FILENO), env.kernel).calls else []
  {
    var buf := new char[BufferSize];
    childCalls := [];
    if !env.pipeOk {
      Strcpy(buf, "compile: pip(fd_err) failure");
      return buf, childCalls;
    }
    if !env.forkOk {
      Strcpy(buf, "compile : vfork failure");
      return buf, childCalls;
    }
    var childErr;
    childCalls, childErr := CaptureChild(comobj, env.pipeWrite, STDERR_FILENO, env.kernel);
    if env.wait.WaitFailed? {
      Strcpy(buf, "wait4 failure");
      return buf, childCalls;
    }
    var status := env.wait.status;
    if status != 0 || IfSignaled(status) {
      var sig := TermSig(status);
      if sig == SIGSEGV || sig == SIGALRM || sig == SIGXCPU {
        Strcpy(buf, "Compile-time error\n");
      } else {
        var r := ReadInto(buf, env.captured, ReadMax);
        buf[r] := '\0';
      }
      return buf, childCalls;
    }
    return null, childCalls;
  }

  /** compileit returns NULL exactly when pipe, vfork and wait4 succeed and the status is 0. */
  lemma CompileSucceedsIff(comobj: Config, env: CaptureEnv)
    ensures CompileSpec(comobj, env).None? <==>
      env.pipeOk && env.forkOk && env.wait.Waited? && env.wait.status == 0
  {
  }

  /** A compiler killed by SIGSEGV, SIGALRM or SIGXCPU gives the fixed message. */
  lemma CompileKilledByLimit(comobj: Config, env: CaptureEnv, sig: int, core: bool, ru: Rusage)
    requires 0 < sig < 0x7f && LimitSignal(sig)
    requires env.pipeOk && env.forkOk && env.wait == Waited(Killed(sig, core), ru)
    ensures CompileSpec(comobj, env) == Some("Compile-time error\n")
  {
    DecodeKilled(sig, core);
  }

  /**
   * A compiler that exits with a non-zero code has term signal 0, so it gets
   * the first 1000 bytes of its stderr, not the fixed message.
   */
  lemma CompileExitNonZero(comobj: Config, env: CaptureEnv, code: int, ru: Rusage)
    requires 0 < code < 0x100
    requires env.pipeOk && env.forkOk && env.wait == Waited(Exited(code), ru)
    ensures CompileSpec(comobj, env) == Some(Read(env.captured, ReadMax))
  {
    DecodeExited(code);
  }

  /** What Python receives from a captured diagnostic free of NUL bytes is the diagnostic itself. */
  lemma CompileMessageReadsBack(comobj: Config, env: CaptureEnv, b: seq<char>)
    requires CompileSpec(comobj, env).Some?
    requires var m := CompileSpec(comobj, env).value;
      |b| == BufferSize && b[..|m|] == m && b[|m|] == '\0'
    requires '\0' !in env.captured
    ensures CString(b) == CompileSpec(comobj, env).value
  {
    var m := CompileSpec(comobj, env).value;
    if m == Read(env.captured, ReadMax) {
      assert forall k :: 0 <= k < |m| ==> m[k] == env.captured[k];
    } else {
      FixedMessagesHaveNoNul();
    }
    CStringOfTerminated(b, m);
  }

  lemma FixedMessagesHaveNoNul()
    ensures '\0' !in "compile: pip(fd_err) failure" && '\0' !in "compile : vfork failure"
    ensures '\0' !in "wait4 failure" && '\0' !in "Compile-time error\n"
  {
  }
}

=== FILE: judge.dfy ===
/**
 * The verdict decisions shared by waitExit and traceLoop: the CPU-time
 * formula over struct rusage and the two classification switches.
 */
module Judge {
  import opened CInt
  import opened WaitStatus
  import opened Kernel

  datatype Verdict = AC | TLE | MLE | RE

  /** The CPU time in microseconds that a rusage record reports. */
  function Micros(ru: Rusage): int
  {
    (ru.utime.sec + ru.stime.sec) * 1000000 + ru.utime.usec + ru.stime.usec
  }

  /**
   * time_used in ms: user plus system time, each microsecond part truncated
   * to whole ms separately. For well-formed records the result is below the
   * exact time by less than 2 ms, never above it.
   */
  function TimeUsed(ru: Rusage): (ms: int)
    ensures ru.utime.usec >= 0 && ru.stime.usec >= 0 ==>
      ms * 1000 <= Micros(ru) < ms * 1000 + 2000
  {
    ru.utime.sec * 1000 + Div(ru.utime.usec, 1000) + ru.stime.sec * 1000 + Div(ru.stime.usec, 1000)
  }

  /** Truncating each part separately can lose a whole millisecond more than truncating the sum. */
  lemma TruncationPerPart()
    ensures var ru := Rusage(TimeVal(0, 999), TimeVal(0, 999), 0);
      TimeUsed(ru) == 0 && Micros(ru) / 1000 == 1
  {
  }

  /** The SIGSEGV / SIGALRM / SIGXCPU switch for a process that died by `sig`. */
  function SignalVerdict(sig: int, memoryUsed: int, memoryLimit: int): (v: Verdict)
    ensures v != AC
    ensures v == TLE <==> sig == SIGALRM || sig == SIGXCPU
    ensures v == MLE <==> sig == SIGSEGV && memoryUsed > memoryLimit
    ensures v == RE <==> sig != SIGALRM && sig != SIGXCPU && (sig != SIGSEGV || memoryUsed <= memoryLimit)
  {
    if sig == SIGSEGV then (if memoryUsed > memoryLimit then MLE else RE)
    else if sig == SIGALRM || sig == SIGXCPU then TLE
    else RE
  }

  /**
   * The classification of a normal exit: over the time limit is TLE whatever
   * the memory, then over the memory limit is MLE, else AC. Both comparisons
   * are strict.
   */
  function ExitVerdict(timeUsed: int, memoryUsed: int, timeLimit: int, memoryLimit: int): (v: Verdict)
    ensures v != RE
    ensures v == TLE <==> timeUsed > timeLimit
    ensures v == MLE <==> timeUsed <= timeLimit && memoryUsed > memoryLimit
    ensures v == AC <==> timeUsed <= timeLimit && memoryUsed <= memoryLimit
  {
    if timeUsed > timeLimit then TLE
    else if memoryUsed > memoryLimit then MLE
    else AC
  }

  /** Raising either limit never turns an accepted exit into a failure. */
  lemma ExitVerdictMonotone(t: int, m: int, tl: int, ml: int, tl': int, ml': int)
    requires tl <= tl' && ml <= ml'
    requires ExitVerdict(t, m, tl, ml) == AC
    ensures ExitVerdict(t, m, tl', ml') == AC
  {
  }
}

=== FILE: kernel.dfy ===
/**
 * The system calls the runner makes, as data. The kernel's answer to each
 * call is an input (a total `Call -> bool` that says whether it succeeds), so
 * a sequence of set-up steps becomes a plan whose outcome is decided by the
 * first call the kernel refuses.
 */
module Kernel {
  import opened Wrappers
  import opened CInt
  import opened WaitStatus

  /** struct timeval */
  datatype TimeVal = TimeVal(sec: int, usec: int)

  /** struct itimerval */
  datatype ITimerVal = ITimerVal(interval: TimeVal, value: TimeVal)

  /** The fields of struct rusage the runner reads. */
  datatype Rusage = Rusage(utime: TimeVal, stime: TimeVal, maxrss: int)

  /** What wait4 hands back: -1, or a status and the child's resource usage. */
  datatype WaitResult = WaitFailed | Waited(status: Status, usage: Rusage)

  datatype Resource = Cpu | Data | AddressSpace | Stack

  /** struct rlimit: soft limit rlim_cur and hard limit rlim_max. */
  datatype RLimit = RLimit(soft: int, hard: int)

  datatype Call =
    | Dup2(oldFd: int, newFd: int)
    | SetRLimit(resource: Resource, limit: RLimit)
    | SetITimerReal(timer: ITimerVal)
    | SetUid(uid: int)
    | TraceMe
    | Execvp(argv: Option<seq<string>>)

  /** One set-up step: the call, and the message reported when it fails. */
  datatype Step = Step(call: Call, failure: string)

  /** The calls of a sequence of steps, in order. */
  function Calls(steps: seq<Step>): (cs: seq<Call>)
    ensures |cs| == |steps|
    ensures forall i :: 0 <= i < |steps| ==> cs[i] == steps[i].call
  {
    seq(|steps|, i requires 0 <= i < |steps| => steps[i].call)
  }

  /** The calls made by a sequence of steps and the message left by the one that failed, if any. */
  datatype Outcome = Outcome(calls: seq<Call>, failure: Option<string>)

  /** `cs` made first, then the calls of `o`. */
  function After(cs: seq<Call>, o: Outcome): Outcome
  {
    Outcome(cs + o.calls, o.failure)
  }

  /**
   * Carrying out a plan step by step, stopping at the first call the kernel
   * refuses: every call up to and including that one is made, and no later
   * one; the failure is that step's message, or None when all succeed.
   */
  function Perform(plan: seq<Step>, ok: Call -> bool): (o: Outcome)
    ensures |o.calls| <= |plan|
  {
    if plan == [] then Outcome([], None)
    else if !ok(plan[0].call) then Outcome([plan[0].call], Some(plan[0].failure))
    else After([plan[0].call], Perform(plan[1..], ok))
  }

  /** The calls made are the first calls of the plan, all of them when nothing failed. */
  lemma {:induction false} PerformPrefix(plan: seq<Step>, ok: Call -> bool)
    ensures var o := Perform(plan, ok);
      o.calls == Calls(plan[..|o.calls|]) && (o.failure.None? ==> |o.calls| == |plan|)
  {
    if plan != [] && ok(plan[0].call) {
      var o := Perform(plan, ok);
      var rest := Perform(plan[1..], ok);
      PerformPrefix(plan[1..], ok);
      assert o.calls == [plan[0].call] + rest.calls;
      forall k | 0 <= k < |o.calls| ensures o.calls[k] == plan[k].call {
        if k > 0 {
          assert o.calls[k] == rest.calls[k - 1] == Calls(plan[1..][..|rest.calls|])[k - 1];
        }
      }
    }
  }

  /** Every call before the last one made was accepted; the run fails exactly when some call is refused. */
  lemma {:induction false} PerformAcceptedBefore(plan: seq<Step>, ok: Call -> bool)
    ensures var o := Perform(plan, ok);
      (forall j :: 0 <= j < |o.calls| - 1 ==> ok(plan[j].call)) &&
      (o.failure.None? <==> forall j :: 0 <= j < |plan| ==> ok(plan[j].call))
  {
    if plan != [] && ok(plan[0].call) {
      var rest := Perform(plan[1..], ok);
      PerformAcceptedBefore(plan[1..], ok);
      forall j | 0 <= j < |plan| && rest.failure.None? ensures ok(plan[j].call) {
        if j > 0 { assert plan[j] == plan[1..][j - 1]; }
      }
      forall j | 0 < j < |rest.calls| ensures ok(plan[j].call) {
        assert plan[j] == plan[1..][j - 1];
      }
      if rest.failure.Some? {
        var k :| 0 <= k < |plan| - 1 && !ok(plan[1..][k].call);
        assert plan[1..][k] == plan[k + 1];
      }
    }
  }

  /** A failure is that of the last call made, which was refused. */
  lemma {:induction false} PerformFailsAtLast(plan: seq<Step>, ok: Call -> bool)
    ensures var o := Perform(plan, ok);
      o.failure.Some? ==>
        0 < |o.calls| <= |plan| && !ok(plan[|o.calls| - 1].call) && o.failure.value == plan[|o.calls| - 1].failure
  {
    if plan != [] && ok(plan[0].call) {
      var rest := Perform(plan[1..], ok);
      PerformFailsAtLast(plan[1..], ok);
      if rest.failure.Some? {
        assert plan[|rest.calls|] == plan[1..][|rest.calls| - 1];
      }
    }
  }

  /**
   * What Perform does, stated without it: the calls made are a prefix of the
   * plan's calls; all but the last succeeded; there is a failure exactly when
   * some call is refused, and then it is the last call made and its message.
   */
  lemma PerformStopsAtFirstRefusal(plan: seq<Step>, ok: Call -> bool)
    ensures var o := Perform(plan, ok);
      |o.calls| <= |plan| && o.calls == Calls(plan[..|o.calls|]) &&
      (forall j :: 0 <= j < |o.calls| - 1 ==> ok(plan[j].call)) &&
      (o.failure.None? <==> forall j :: 0 <= j < |plan| ==> ok(plan[j].call)) &&
      (o.failure.None? ==> |o.calls| == |plan|) &&
      (o.failure.Some? ==>
         0 < |o.calls| && !ok(plan[|o.calls| - 1].call) && o.failure.value == plan[|o.calls| - 1].failure)
  {
    PerformPrefix(plan, ok);
    PerformAcceptedBefore(plan, ok);
    PerformFailsAtLast(plan, ok);
  }

  /** One step, then the rest. */
  lemma PerformCons(s: Step, rest: seq<Step>, ok: Call -> bool)
    ensures Perform([s] + rest, ok) ==
      if ok(s.call) then After([s.call], Perform(rest, ok)) else Outcome([s.call], Some(s.failure))
  {
    assert ([s] + rest)[1..] == rest;
  }

  lemma AfterAfter(a: seq<Call>, b: seq<Call>, o: Outcome)
    ensures After(a, After(b, o)) == After(a + b, o)
  {
    assert a + (b + o.calls) == (a + b) + o.calls;
  }

  /**
   * Carrying out two plans one after the other: the second one starts only
   * when the first one went through.
   */
  lemma {:induction false} PerformAppend(a: seq<Step>, b: seq<Step>, ok: Call -> bool)
    ensures Perform(a + b, ok) ==
      if Perform(a, ok).failure.Some? then Perform(a, ok) else After(Perform(a, ok).calls, Perform(b, ok))
  {
    if a == [] {
      assert a + b == b;
    } else {
      assert a + b == [a[0]] + (a[1..] + b);
      assert a == [a[0]] + a[1..];
      PerformCons(a[0], a[1..] + b, ok);
      PerformCons(a[0], a[1..], ok);
      if ok(a[0].call) {
        PerformAppend(a[1..], b, ok);
        AfterAfter([a[0].call], Perform(a[1..], ok).calls, Perform(b, ok));
      }
    }
  }

  /** A step taken only when `cond` holds. */
  function Opt(cond: bool, s: Step): (p: seq<Step>)
    ensures cond <==> p == [s]
    ensures !cond <==> p == []
  {
    if cond then [s] else []
  }

  /** An optional step followed by the rest of a plan. */
  lemma PerformOpt(cond: bool, s: Step, rest: seq<Step>, ok: Call -> bool)
    ensures Perform(Opt(cond, s) + rest, ok) ==
      if !cond then Perform(rest, ok)
      else if ok(s.call) then After([s.call], Perform(rest, ok))
      else Outcome([s.call], Some(s.failure))
  {
    if cond { PerformCons(s, rest, ok); } else { assert Opt(cond, s) + rest == rest; }
  }

  /**
   * Every failure message of the plan is a non-empty C string (no NUL) that
   * fits a read of `n` bytes.
   */
  predicate MessagesFit(plan: seq<Step>, n: nat)
  {
    forall i :: 0 <= i < |plan| ==> 0 < |plan[i].failure| <= n && '\0' !in plan[i].failure
  }

  lemma MessagesFitAppend(a: seq<Step>, b: seq<Step>, n: nat)
    requires MessagesFit(a, n) && MessagesFit(b, n)
    ensures MessagesFit(a + b, n)
  {
    forall i | 0 <= i < |a + b| ensures 0 < |(a + b)[i].failure| <= n && '\0' !in (a + b)[i].failure {
      if i >= |a| { assert (a + b)[i] == b[i - |a|]; }
    }
  }

  lemma OptFits(cond: bool, s: Step, n: nat)
    requires 0 < |s.failure| <= n && '\0' !in s.failure
    ensures MessagesFit(Opt(cond, s), n)
  {
  }

  /** A plan whose messages fit can only fail with a message that fits. */
  lemma FailureFits(plan: seq<Step>, ok: Call -> bool, n: nat)
    requires MessagesFit(plan, n)
    ensures var f := Perform(plan, ok).failure;
      f.Some? ==> 0 < |f.value| <= n && '\0' !in f.value
  {
    PerformStopsAtFirstRefusal(plan, ok);
  }

  /**
   * read(fd, buf, n) on a pipe holding `pending`: the bytes the call returns.
   * The count is min(n, |pending|); a short read of a pipe that holds more is
   * not modelled.
   */
  function Read(pending: seq<char>, n: nat): (got: seq<char>)
    ensures |got| == Min(n, |pending|)
    ensures got <= pending
  {
    pending[..Min(n, |pending|)]
  }
}

=== FILE: limit.dfy ===
/**
 * setResLimit: the CPU, data, address-space and stack limits and the
 * wall-clock watchdog that a child installs on itself before exec.
 */
module Limit {
  import opened Wrappers
  import opened CInt
  import opened Kernel
  import opened Lorun

  /** The stack soft limit, 256 MiB whatever the request. */
  const StackBytes := 256 * 1024 * 1024

  /**
   * RLIMIT_CPU in seconds: time_limit/1000 + 1, one more when the sub-second
   * remainder exceeds 800 ms; the hard limit is one second above.
   * For a non-negative limit this is the judged limit plus 200 ms, rounded up
   * to whole seconds.
   */
  function CpuLimit(timeLimit: int): (rl: RLimit)
    ensures rl.hard == rl.soft + 1
    ensures rl.soft * 1000 > timeLimit
    ensures timeLimit >= 0 ==> rl.soft * 1000 >= timeLimit + 200 && (rl.soft - 1) * 1000 < timeLimit + 200
  {
    var soft := Div(timeLimit, 1000) + 1;
    var soft := if Mod(timeLimit, 1000) > 800 then soft + 1 else soft;
    RLimit(soft, soft + 1)
  }

  /** RLIMIT_DATA in bytes: the memory limit in KiB times 1024, hard limit 1 KiB above. */
  function DataLimit(memoryLimit: int): (rl: RLimit)
    ensures rl.soft == memoryLimit * 1024 && rl.hard == rl.soft + 1024
  {
    RLimit(memoryLimit * 1024, memoryLimit * 1024 + 1024)
  }

  /** RLIMIT_AS: twice the data limit, hard limit 1 KiB above. */
  function AddressSpaceLimit(memoryLimit: int): (rl: RLimit)
    ensures rl.soft == 2 * DataLimit(memoryLimit).soft && rl.hard == rl.soft + 1024
  {
    var soft := memoryLimit * 1024 * 2;
    RLimit(soft, soft + 1024)
  }

  /** RLIMIT_STACK: 256 MiB, hard limit 1 KiB above. */
  function StackLimit(): (rl: RLimit)
    ensures rl.soft == 268435456 && rl.hard == rl.soft + 1024
  {
    RLimit(StackBytes, StackBytes + 1024)
  }

  /** ITIMER_REAL: a repeating timer of time_limit/1000 + 2 whole seconds. */
  function Watchdog(timeLimit: int): (t: ITimerVal)
    ensures t.value == t.interval && t.interval.usec == 0
    ensures timeLimit >= 0 ==> t.interval.sec * 1000 > timeLimit + 1000
    ensures timeLimit >= 0 ==> t.interval.sec * 1000 <= timeLimit + 2000
  {
    var tv := TimeVal(Div(timeLimit, 1000) + 2, 0);
    ITimerVal(tv, tv)
  }

  /** The watchdog never fires before the CPU soft limit would. */
  lemma WatchdogAfterCpuLimit(timeLimit: int)
    ensures CpuLimit(timeLimit).soft <= Watchdog(timeLimit).interval.sec
  {
  }

  /** The worked values: 1000 ms gives 2 s, 1800 ms 2 s, 1801 ms and 1900 ms 3 s. */
  lemma CpuLimitExamples()
    ensures CpuLimit(1000) == RLimit(2, 3) && CpuLimit(1800) == RLimit(2, 3)
    ensures CpuLimit(1801) == RLimit(3, 4) && CpuLimit(1900) == RLimit(3, 4)
    ensures Watchdog(1000).interval == TimeVal(3, 0)
  {
  }

  /** The messages setResLimit leaves in last_limit_err, one per call. */
  const LimitErrors: seq<string> := [
    "set RLIMIT_CPU failure", "set RLIMIT_DATA failure", "set RLIMIT_AS failure",
    "set RLIMIT_STACK failure", "set ITIMER_REAL failure"]

  /** The calls setResLimit makes, in order, each with the message it leaves on failure. */
  function LimitPlan(runobj: Config): (plan: seq<Step>)
  {
    [ Step(SetRLimit(Cpu, CpuLimit(runobj.timeLimit)), LimitErrors[0]),
      Step(SetRLimit(Data, DataLimit(runobj.memoryLimit)), LimitErrors[1]),
      Step(SetRLimit(AddressSpace, AddressSpaceLimit(runobj.memoryLimit)), LimitErrors[2]),
      Step(SetRLimit(Stack, StackLimit()), LimitErrors[3]),
      Step(SetITimerReal(Watchdog(runobj.timeLimit)), LimitErrors[4]) ]
  }

  lemma LimitErrorsAreCStrings()
    ensures forall i :: 0 <= i < |LimitErrors| ==> 0 < |LimitErrors[i]| <= 24 && '\0' !in LimitErrors[i]
  {
  }

  /** Its messages are C strings of at most 24 characters, the longest being the RLIMIT_STACK one. */
  lemma LimitMessagesFit(runobj: Config, n: nat)
    requires 24 <= n
    ensures MessagesFit(LimitPlan(runobj), n)
  {
    var p := LimitPlan(runobj);
    LimitErrorsAreCStrings();
    assert forall i :: 0 <= i < |p| ==> p[i].failure == LimitErrors[i];
  }

  /**
   * setResLimit. Returns 0 when every call succeeds; otherwise -1 with
   * last_limit_err set to the failing call's message, and no later call made.
   * `calls` lists the calls made, in order.
   */
  method SetResLimit(runobj: Config, ok: Call -> bool) returns (rc: int, lastLimitErr: Option<string>, calls: seq<Call>)
    ensures Outcome(calls, lastLimitErr) == Perform(LimitPlan(runobj), ok)
    ensures rc == 0 <==> lastLimitErr.None?
    ensures rc == 0 || rc == -1
  {
    ghost var p := LimitPlan(runobj);
    ghost var p1, p2, p3, p4 := p[1..], p[2..], p[3..], p[4..];
    PerformCons(p[0], p1, ok);
    PerformCons(p[1], p2, ok);
    PerformCons(p[2], p3, ok);
    PerformCons(p[3], p4, ok);
    PerformCons(p[4], [], ok);
    assert p == [p[0]] + p1 && p1 == [p[1]] + p2 && p2 == [p[2]] + p3 && p3 == [p[3]] + p4 && p4 == [p[4]] + [];

    var soft := Div(runobj.timeLimit, 1000) + 1;
    if Mod(runobj.timeLimit, 1000) > 800 {
      soft := soft + 1;
    }
    var rl := RLimit(soft, soft + 1);
    calls := [SetRLimit(Cpu, rl)];
    if !ok(SetRLimit(Cpu, rl)) {
      return -1, Some("set RLIMIT_CPU failure"), calls;
    }

    rl := RLimit(runobj.memoryLimit * 1024, runobj.memoryLimit * 1024 + 1024);
    calls := calls + [SetRLimit(Data, rl)];
    if !ok(SetRLimit(Data, rl)) {
      return -1, Some("set RLIMIT_DATA failure"), calls;
    }

    rl := RLimit(runobj.memoryLimit * 1024 * 2, runobj.memoryLimit * 1024 * 2 + 1024);
    calls := calls + [SetRLimit(AddressSpace, rl)];
    if !ok(SetRLimit(AddressSpace, rl)) {
      return -1, Some("set RLIMIT_AS failure"), calls;
    }

    rl := RLimit(StackBytes, StackBytes + 1024);
    calls := calls + [SetRLimit(Stack, rl)];
    if !ok(SetRLimit(Stack, rl)) {
      return -1, Some("set RLIMIT_STACK failure"), calls;
    }

    var interval := TimeVal(Div(runobj.timeLimit, 1000) + 2, 0);
    var timer := ITimerVal(interval, interval);
    calls := calls + [SetITimerReal(timer)];
    if !ok(SetITimerReal(timer)) {
      return -1, Some("set ITIMER_REAL failure"), calls;
    }
    return 0, None, calls;
  }
}

=== FILE: lorun.dfy ===
/**
 * The request record (struct Runobj) and initRun, which fills it from the
 * Python dictionary passed to run() or compile().
 */
module Lorun {
  import opened Wrappers

  /** The Python values initRun can meet, with string dictionary keys. */
  datatype Value =
    | Int(i: int)
    | Bool(b: bool)
    | Str(s: string)
    | List(items: seq<Value>)
    | Dict(entries: map<string, Value>)
    | NoneValue

  /**
   * The fields of struct Runobj. `args` is the converted argument vector (NULL
   * until converted), `calls` the syscall table filled by initCalls and
   * `files` the permitted-files dictionary object.
   */
  datatype Config = Config(
    args: Option<seq<string>>,
    fdIn: int, fdOut: int, fdErr: int,
    timeLimit: int, memoryLimit: int,
    runner: int,
    trace: bool,
    calls: set<int>,
    files: Option<Value>)

  /** The zero-initialised record `struct Runobj runobj = {0}`. */
  const Zero := Config(None, 0, 0, 0, 0, 0, 0, false, {}, None)

  /**
   * The converters of convert.h, which are not part of this model: genRunArgs
   * turns the args object into an argument vector and initCalls fills the
   * syscall table; either may fail (None).
   */
  datatype Converters = Converters(
    genRunArgs: Value -> Option<seq<string>>,
    initCalls: Value -> Option<set<int>>)

  /** Why initRun returned -1. */
  datatype InitError =
    | Raised(msg: string)    // RAISE1(msg)
    | ArgsRejected           // genRunArgs failed and set its own error
    | CallsRejected          // initCalls failed and set its own error

  /** PyLong_AsLong: an int, a bool as 0 or 1, and -1 (with an exception set) for the rest. */
  function AsLong(v: Value): int
  {
    match v
    case Int(i) => i
    case Bool(b) => if b then 1 else 0
    case _ => -1
  }

  /** An optional integer option: -1 when the key is absent. */
  function LongOr(d: map<string, Value>, key: string): int
  {
    if key in d then AsLong(d[key]) else -1
  }

  /** `trace_obj == Py_True`: only the True object turns tracing on. */
  predicate TraceOn(d: map<string, Value>)
  {
    "trace" in d && d["trace"] == Bool(true)
  }

  /**
   * What initRun leaves in the record and what it reports, field by field in
   * the order the C code assigns them; an early error leaves the fields
   * assigned so far.
   */
  function InitRunSpec(o: Config, config: Value, conv: Converters): (Config, Option<InitError>)
  {
    if !config.Dict? then (o, Some(Raised("argument must be a dict")))
    else
      var d := config.entries;
      if "args" !in d then (o, Some(Raised("must supply args")))
      else
        var o1 := o.(args := conv.genRunArgs(d["args"]));
        if o1.args.None? then (o1, Some(ArgsRejected))
        else InitLimitsSpec(o1, d, conv)
  }

  /** The part of initRun after the argument vector: descriptors, limits, runner. */
  function InitLimitsSpec(o: Config, d: map<string, Value>, conv: Converters): (Config, Option<InitError>)
  {
    var o2 := o.(fdIn := LongOr(d, "fd_in"), fdOut := LongOr(d, "fd_out"), fdErr := LongOr(d, "fd_err"));
    if "timelimit" !in d then (o2, Some(Raised("must supply timelimit")))
    else
      var o3 := o2.(timeLimit := AsLong(d["timelimit"]));
      if "memorylimit" !in d then (o3, Some(Raised("must supply memorylimit")))
      else InitTraceSpec(o3.(memoryLimit := AsLong(d["memorylimit"]), runner := LongOr(d, "runner")), d, conv)
  }

  /** The last part of initRun: the trace flag and, with trace on, calls and files. */
  function InitTraceSpec(o: Config, d: map<string, Value>, conv: Converters): (Config, Option<InitError>)
  {
    if !TraceOn(d) then (o.(trace := false), None)
    else
      var o5 := o.(trace := true);
      if "calls" !in d then (o5, Some(Raised("trace == True, so you must specify calls.")))
      else if !d["calls"].List? then (o5, Some(Raised("calls must be a list.")))
      else
        var table := conv.initCalls(d["calls"]);
        if table.None? then (o5, Some(CallsRejected))
        else
          var o6 := o5.(calls := table.value);
          if "files" !in d then (o6.(files := None), Some(Raised("trace == True, so you must specify files.")))
          else
            var o7 := o6.(files := Some(d["files"]));
            if !d["files"].Dict? then (o7, Some(Raised("files must be a dcit.")))
            else (o7, None)
  }

  /** A request is accepted exactly when every required key is there and well-formed. */
  lemma InitRunAccepts(o: Config, config: Value, conv: Converters)
    ensures InitRunSpec(o, config, conv).1 == None <==>
      config.Dict? &&
      "args" in config.entries && conv.genRunArgs(config.entries["args"]).Some? &&
      "timelimit" in config.entries && "memorylimit" in config.entries &&
      (TraceOn(config.entries) ==>
         "calls" in config.entries && config.entries["calls"].List? &&
         conv.initCalls(config.entries["calls"]).Some? &&
         "files" in config.entries && config.entries["files"].Dict?)
  {
  }

  /** A missing `args` is reported before any other key is looked at. */
  lemma ArgsCheckedFirst(o: Config, d: map<string, Value>, conv: Converters)
    requires "args" !in d
    ensures InitRunSpec(o, Dict(d), conv) == (o, Some(Raised("must supply args")))
  {
  }

  /** A missing `timelimit` is reported before a missing `memorylimit`. */
  lemma TimeLimitCheckedBeforeMemoryLimit(o: Config, d: map<string, Value>, conv: Converters)
    requires "args" in d && conv.genRunArgs(d["args"]).Some?
    requires "timelimit" !in d
    ensures InitRunSpec(o, Dict(d), conv).1 == Some(Raised("must supply timelimit"))
  {
  }

  /**
   * On success: the stream descriptors and the runner are -1 when absent,
   * the limits come from their keys, and trace is on only for the True object,
   * in which case the call table and the files dictionary were supplied.
   */
  lemma InitRunFields(o: Config, d: map<string, Value>, conv: Converters)
    requires InitRunSpec(o, Dict(d), conv).1 == None
    ensures var c := InitRunSpec(o, Dict(d), conv).0;
      c.args == conv.genRunArgs(d["args"]) &&
      ("fd_in" !in d ==> c.fdIn == -1) && ("fd_out" !in d ==> c.fdOut == -1) &&
      ("fd_err" !in d ==> c.fdErr == -1) && ("runner" !in d ==> c.runner == -1) &&
      c.timeLimit == AsLong(d["timelimit"]) && c.memoryLimit == AsLong(d["memorylimit"]) &&
      (c.trace <==> "trace" in d && d["trace"] == Bool(true)) &&
      (c.trace ==> c.calls == conv.initCalls(d["calls"]).value && c.files == Some(d["files"]) && d["files"].Dict?) &&
      (!c.trace ==> c.calls == o.calls && c.files == o.files)
  {
  }

  /**
   * With trace on, the errors about `calls` and `files` come in that order,
   * each with its own message.
   */
  lemma TraceErrorsInOrder(o: Config, d: map<string, Value>, conv: Converters)
    requires "args" in d && conv.genRunArgs(d["args"]).Some?
    requires "timelimit" in d && "memorylimit" in d
    requires TraceOn(d)
    ensures "calls" !in d ==>
      InitRunSpec(o, Dict(d), conv).1 == Some(Raised("trace == True, so you must specify calls."))
    ensures "calls" in d && !d["calls"].List? ==>
      InitRunSpec(o, Dict(d), conv).1 == Some(Raised("calls must be a list."))
    ensures "calls" in d && d["calls"].List? && conv.initCalls(d["calls"]).Some? && "files" !in d ==>
      InitRunSpec(o, Dict(d), conv).1 == Some(Raised("trace == True, so you must specify files."))
    ensures "calls" in d && d["calls"].List? && conv.initCalls(d["calls"]).Some? &&
            "files" in d && !d["files"].Dict? ==>
      InitRunSpec(o, Dict(d), conv).1 == Some(Raised("files must be a dcit."))
  {
  }

  /** struct Runobj, filled in place by initRun. */
  class Runobj {
    var args: Option<seq<string>>
    var fdIn: int
    var fdOut: int
    var fdErr: int
    var timeLimit: int
    var memoryLimit: int
    var runner: int
    var trace: bool
    var calls: set<int>
    var files: Option<Value>

    function Snapshot(): Config
      reads this
    {
      Config(args, fdIn, fdOut, fdErr, timeLimit, memoryLimit, runner, trace, calls, files)
    }

    /** `struct Runobj runobj = {0}` */
    constructor ()
      ensures Snapshot() == Zero
    {
      args, fdIn, fdOut, fdErr := None, 0, 0, 0;
      timeLimit, memoryLimit, runner := 0, 0, 0;
      trace, calls, files := false, {}, None;
    }

    /** initRun: assigns the fields one by one and stops at the first error. */
    method InitRun(config: Value, conv: Converters) returns (err: Option<InitError>)
      modifies this
      ensures (Snapshot(), err) == InitRunSpec(old(Snapshot()), config, conv)
    {
      if !config.Dict? {
        return Some(Raised("argument must be a dict"));
      }
      var d := config.entries;
      if "args" !in d {
        return Some(Raised("must supply args"));
      }
      args := conv.genRunArgs(d["args"]);
      if args.None? {
        return Some(ArgsRejected);
      }
      assert InitRunSpec(old(Snapshot()), config, conv) == InitLimitsSpec(Snapshot(), d, conv);
      err := InitLimits(d, conv);
    }

    /** The assignments of initRun after the argument vector. */
    method InitLimits(d: map<string, Value>, conv: Converters) returns (err: Option<InitError>)
      modifies this
      ensures (Snapshot(), err) == InitLimitsSpec(old(Snapshot()), d, conv)
    {
      fdIn := if "fd_in" in d then AsLong(d["fd_in"]) else -1;
      fdOut := if "fd_out" in d then AsLong(d["fd_out"]) else -1;
      fdErr := if "fd_err" in d then AsLong(d["fd_err"]) else -1;
      if "timelimit" !in d {
        return Some(Raised("must supply timelimit"));
      }
      timeLimit := AsLong(d["timelimit"]);
      if "memorylimit" !in d {
        return Some(Raised("must supply memorylimit"));
      }
      memoryLimit := AsLong(d["memorylimit"]);
      runner := if "runner" in d then AsLong(d["runner"]) else -1;
      err := InitTrace(d, conv);
    }

    /** The assignments of initRun for the trace flag, the call table and the files. */
    method InitTrace(d: map<string, Value>, conv: Converters) returns (err: Option<InitError>)
      modifies this
      ensures (Snapshot(), err) == InitTraceSpec(old(Snapshot()), d, conv)
    {
      if "trace" in d && d["trace"] == Bool(true) {
        trace := true;
        if "calls" !in d {
          return Some(Raised("trace == True, so you must specify calls."));
        }
        if !d["calls"].List? {
          return Some(Raised("calls must be a list."));
        }
        var table := conv.initCalls(d["calls"]);
        if table.None? {
          return Some(CallsRejected);
        }
        calls := table.value;
        files := if "files" in d then Some(d["files"]) else None;
        if files.None? {
          return Some(Raised("trace == True, so you must specify files."));
        }
        if !d["files"].Dict? {
          return Some(Raised("files must be a dcit."));
        }
      } else {
        trace := false;
      }
      return None;
    }
  }
}

=== FILE: run.dfy ===
/**
 * Running the submitted program: the child's set-up sequence, the parent's
 * check of the error pipe, and the two ways of watching the child, waitExit
 * (plain wait) and traceLoop (syscall tracing with an access check).
 */
module Run {
  import opened Wrappers
  import opened CInt
  import opened WaitStatus
  import opened Kernel
  import opened Lorun
  import opened Limit
  import opened Judge
  import opened CBuffer

  /** The two registers the runner reads: REG_SYS_CALL and REG_ARG_2 of access.h. */
  datatype Regs = Regs(sysCall: int, arg2: int)

  /**
   * The answer of checkAccess (access.h, not part of this model): allowed, a
   * disallowed syscall, or a disallowed file, carrying what lastFileAccess()
   * then returns.
   */
  datatype Access = AccessOk | AccessCallErr | AccessFileErr(path: string)

  /**
   * One turn of traceLoop's wait4: either wait4 failed, or the child changed
   * state; `regs` is the PTRACE_GETREGS answer (None when it fails) and
   * `access` what checkAccess answers if it is asked on this turn.
   */
  datatype TraceEvent =
    | TraceWaitFailed
    | TraceStop(status: Status, usage: Rusage, regs: Option<Regs>, access: Access)

  /**
   * How a monitoring routine ends: returned 0, returned -1 with last_run_err
   * (or raised a Python error), or still waiting because the event stream ran
   * out while the real wait4 would block.
   */
  datatype Ret = Finished | Failed(err: string) | Waiting

  /** The fields of struct Result. `judge` is None until a verdict is written. */
  datatype Report = Report(
    judge: Option<Verdict>,
    timeUsed: int,
    memoryUsed: int,
    reSignum: int,
    reCall: int,
    reFile: Option<string>,
    reFileFlag: int)

  /** `struct Result rst = {0}; rst.re_call = -1;` */
  const Fresh := Report(None, 0, 0, 0, -1, None, 0)

  /** struct Result, written in place by waitExit and traceLoop. */
  class RunResult {
    var judge: Option<Verdict>
    var timeUsed: int
    var memoryUsed: int
    var reSignum: int
    var reCall: int
    var reFile: Option<string>
    var reFileFlag: int

    function Snapshot(): Report
      reads this
    {
      Report(judge, timeUsed, memoryUsed, reSignum, reCall, reFile, reFileFlag)
    }

    /** The result record as run() prepares it: zeroed, with re_call = -1. */
    constructor ()
      ensures Snapshot() == Fresh
    {
      judge, timeUsed, memoryUsed, reSignum := None, 0, 0, 0;
      reCall, reFile, reFileFlag := -1, None, 0;
    }
  }

  /** The fields written after a normal exit. */
  function ExitReport(rep: Report, runobj: Config, ru: Rusage): Report
  {
    rep.(judge := Some(ExitVerdict(TimeUsed(ru), ru.maxrss, runobj.timeLimit, runobj.memoryLimit)),
         timeUsed := TimeUsed(ru), memoryUsed := ru.maxrss)
  }

  /** The fields written after death by (or a stop on) signal `sig`. */
  function SignalReport(rep: Report, runobj: Config, ru: Rusage, sig: int): Report
  {
    rep.(judge := Some(SignalVerdict(sig, ru.maxrss, runobj.memoryLimit)),
         timeUsed := TimeUsed(ru), memoryUsed := ru.maxrss, reSignum := sig)
  }

  /** The fields written when checkAccess refuses; memory is scaled by pagesize/1024. */
  function DenyReport(rep: Report, ru: Rusage, pageSize: int, access: Access, regs: Regs): Report
    requires access != AccessOk
  {
    var rep' := rep.(judge := Some(RE), timeUsed := TimeUsed(ru), memoryUsed := ru.maxrss * Div(pageSize, 1024));
    if access == AccessCallErr then rep'.(reCall := regs.sysCall)
    else rep'.(reFile := Some(access.path), reFileFlag := regs.arg2)
  }

  // ---------------------------------------------------------------------------
  // waitExit

  function WaitExitSpec(runobj: Config, rep: Report, w: WaitResult): (Ret, Report)
  {
    match w
    case WaitFailed => (Failed("wait4 failure"), rep)
    case Waited(status, ru) =>
      if IfSignaled(status) then (Finished, SignalReport(rep, runobj, ru, TermSig(status)))
      else (Finished, ExitReport(rep, runobj, ru))
  }

  /** waitExit: one blocking wait4, then the verdict written into `rst`. */
  method WaitExit(runobj: Config, rst: RunResult, w: WaitResult) returns (ret: Ret)
    modifies rst
    ensures (ret, rst.Snapshot()) == WaitExitSpec(runobj, old(rst.Snapshot()), w)
  {
    if w.WaitFailed? {
      return Failed("wait4 failure");
    }
    var status, ru := w.status, w.usage;
    rst.timeUsed := ru.utime.sec * 1000 + Div(ru.utime.usec, 1000)
                    + ru.stime.sec * 1000 + Div(ru.stime.usec, 1000);
    rst.memoryUsed := ru.maxrss;
    if IfSignaled(status) {
      var sig := TermSig(status);
      if sig == SIGSEGV {
        rst.judge := if rst.memoryUsed > runobj.memoryLimit then Some(MLE) else Some(RE);
      } else if sig == SIGALRM || sig == SIGXCPU {
        rst.judge := Some(TLE);
      } else {
        rst.judge := Some(RE);
      }
      rst.reSignum := sig;
    } else {
      if rst.timeUsed > runobj.timeLimit {
        rst.judge := Some(TLE);
      } else if rst.memoryUsed > runobj.memoryLimit {
        rst.judge := Some(MLE);
      } else {
        rst.judge := Some(AC);
      }
    }
    return Finished;
  }

  /**
   * The verdict table of waitExit: time and memory are always recorded, the
   * signal number only on death by signal, and nothing else changes.
   */
  lemma WaitExitTable(runobj: Config, rep: Report, status: Status, ru: Rusage)
    ensures var (ret, r) := WaitExitSpec(runobj, rep, Waited(status, ru));
      ret == Finished && r.judge.Some? && r.timeUsed == TimeUsed(ru) && r.memoryUsed == ru.maxrss &&
      r.reCall == rep.reCall && r.reFile == rep.reFile && r.reFileFlag == rep.reFileFlag &&
      r.reSignum == (if IfSignaled(status) then TermSig(status) else rep.reSignum) &&
      (r.judge == Some(AC) <==> !IfSignaled(status) && TimeUsed(ru) <= runobj.timeLimit && ru.maxrss <= runobj.memoryLimit) &&
      (r.judge == Some(TLE) <==>
         (IfSignaled(status) && (TermSig(status) == SIGALRM || TermSig(status) == SIGXCPU)) ||
         (!IfSignaled(status) && TimeUsed(ru) > runobj.timeLimit)) &&
      (r.judge == Some(MLE) <==>
         (IfSignaled(status) && TermSig(status) == SIGSEGV && ru.maxrss > runobj.memoryLimit) ||
         (!IfSignaled(status) && TimeUsed(ru) <= runobj.timeLimit && ru.maxrss > runobj.memoryLimit)) &&
      (r.judge == Some(RE) <==>
         IfSignaled(status) && TermSig(status) != SIGALRM && TermSig(status) != SIGXCPU &&
         (TermSig(status) != SIGSEGV || ru.maxrss <= runobj.memoryLimit))
  {
  }

  // ---------------------------------------------------------------------------
  // traceLoop

  /** A SIGTRAP stop whose registers could be read: the loop goes on after it unless refused. */
  predicate IsTrap(e: TraceEvent)
  {
    e.TraceStop? && !IfExited(e.status) && StopSig(e.status) == SIGTRAP && e.regs.Some?
  }

  /**
   * traceLoop over the events still to come, `incall` being whether the
   * previous trap was the first of a pair.
   */
  function TraceSpec(runobj: Config, rep: Report, evs: seq<TraceEvent>, incall: bool, pageSize: int): (Ret, Report)
    decreases |evs|
  {
    if evs == [] then (Waiting, rep)
    else
      match evs[0]
      case TraceWaitFailed => (Failed("wait4 [WSTOPPED] failure"), rep)
      case TraceStop(status, ru, regs, access) =>
        if IfExited(status) then (Finished, ExitReport(rep, runobj, ru))
        else if StopSig(status) != SIGTRAP then (Finished, SignalReport(rep, runobj, ru, StopSig(status)))
        else if regs.None? then (Failed("PTRACE_GETREGS failure"), rep)
        else if incall && access != AccessOk then (Finished, DenyReport(rep, ru, pageSize, access, regs.value))
        else TraceSpec(runobj, rep, evs[1..], !incall, pageSize)
  }

  /** traceLoop: wait, classify, check every second trap, resume; `incall` starts at 0. */
  method TraceLoop(runobj: Config, rst: RunResult, evs: seq<TraceEvent>, pageSize: int) returns (ret: Ret)
    modifies rst
    ensures (ret, rst.Snapshot()) == TraceSpec(runobj, old(rst.Snapshot()), evs, false, pageSize)
  {
    var incall := false;
    var ru := Rusage(TimeVal(0, 0), TimeVal(0, 0), 0);
    var exited := false;
    var i := 0;
    while i < |evs|
      invariant 0 <= i <= |evs|
      invariant unchanged(rst)
      invariant TraceSpec(runobj, old(rst.Snapshot()), evs, false, pageSize)
             == TraceSpec(runobj, old(rst.Snapshot()), evs[i..], incall, pageSize)
    {
      if evs[i].TraceWaitFailed? {
        return Failed("wait4 [WSTOPPED] failure");
      }
      var status := evs[i].status;
      ru := evs[i].usage;
      if IfExited(status) {
        exited := true;
        break;
      } else if StopSig(status) != SIGTRAP {
        // PTRACE_KILL and reap, then classify the stopping signal
        rst.timeUsed := ru.utime.sec * 1000 + Div(ru.utime.usec, 1000)
                        + ru.stime.sec * 1000 + Div(ru.stime.usec, 1000);
        rst.memoryUsed := ru.maxrss;
        var sig := StopSig(status);
        if sig == SIGSEGV {
          rst.judge := if rst.memoryUsed > runobj.memoryLimit then Some(MLE) else Some(RE);
        } else if sig == SIGALRM || sig == SIGXCPU {
          rst.judge := Some(TLE);
        } else {
          rst.judge := Some(RE);
        }
        rst.reSignum := sig;
        return Finished;
      }
      if evs[i].regs.None? {
        return Failed("PTRACE_GETREGS failure");
      }
      var regs := evs[i].regs.value;
      if incall {
        var answer := evs[i].access;
        if answer != AccessOk {
          // PTRACE_KILL and reap, then record the offending call or file
          rst.timeUsed := ru.utime.sec * 1000 + Div(ru.utime.usec, 1000)
                          + ru.stime.sec * 1000 + Div(ru.stime.usec, 1000);
          rst.memoryUsed := ru.maxrss * Div(pageSize, 1024);
          rst.judge := Some(RE);
          if answer == AccessCallErr {
            rst.reCall := regs.sysCall;
          } else {
            rst.reFile := Some(answer.path);
            rst.reFileFlag := regs.arg2;
          }
          return Finished;
        }
        incall := false;
      } else {
        incall := true;
      }
      // PTRACE_SYSCALL: resume until the next stop
      i := i + 1;
    }
    if !exited {
      return Waiting;
    }
    rst.timeUsed := ru.utime.sec * 1000 + Div(ru.utime.usec, 1000)
                    + ru.stime.sec * 1000 + Div(ru.stime.usec, 1000);
    rst.memoryUsed := ru.maxrss;
    if rst.timeUsed > runobj.timeLimit {
      rst.judge := Some(TLE);
    } else if rst.memoryUsed > runobj.memoryLimit {
      rst.judge := Some(MLE);
    } else {
      rst.judge := Some(AC);
    }
    return Finished;
  }

  /**
   * Whether the trap at position i of the remaining events is a checked one:
   * with incall = 0 these are the 2nd, 4th, ... traps.
   */
  predicate Checked(i: nat, incall: bool)
  {
    (i % 2 == 1) == !incall
  }

  /** Two events that differ at most in what checkAccess would answer. */
  predicate SameButAnswer(e: TraceEvent, f: TraceEvent)
  {
    e == f || (e.TraceStop? && f.TraceStop? && e.status == f.status && e.usage == f.usage && e.regs == f.regs)
  }

  /**
   * checkAccess is consulted only on checked traps: what it would answer on
   * the others (the first trap among them) never changes the outcome.
   */
  lemma {:induction false} UncheckedAnswersIgnored(runobj: Config, rep: Report, evs: seq<TraceEvent>,
                                                   evs': seq<TraceEvent>, incall: bool, pageSize: int)
    requires |evs| == |evs'|
    requires forall i :: 0 <= i < |evs| ==> evs'[i] == evs[i] || (!Checked(i, incall) && SameButAnswer(evs[i], evs'[i]))
    ensures TraceSpec(runobj, rep, evs, incall, pageSize) == TraceSpec(runobj, rep, evs', incall, pageSize)
  {
    if evs != [] {
      forall i | 0 <= i < |evs| - 1
        ensures evs'[1..][i] == evs[1..][i] || (!Checked(i, !incall) && SameButAnswer(evs[1..][i], evs'[1..][i]))
      {
        assert evs'[1..][i] == evs'[i + 1] && evs[1..][i] == evs[i + 1];
        assert Checked(i, !incall) == Checked(i + 1, incall);
      }
      UncheckedAnswersIgnored(runobj, rep, evs[1..], evs'[1..], incall == false, pageSize);
      assert Checked(0, incall) == incall;
    }
  }

  /**
   * A run of traps whose checked ones are allowed only toggles `incall`: the
   * loop then behaves as on the events after them.
   */
  lemma {:induction false} AllowedTrapsSkipped(runobj: Config, rep: Report, evs: seq<TraceEvent>, n: nat,
                                               incall: bool, pageSize: int)
    requires n <= |evs|
    requires forall i :: 0 <= i < n ==> IsTrap(evs[i]) && (Checked(i, incall) ==> evs[i].access == AccessOk)
    ensures TraceSpec(runobj, rep, evs, incall, pageSize)
         == TraceSpec(runobj, rep, evs[n..], if n % 2 == 0 then incall else !incall, pageSize)
  {
    if n > 0 {
      assert IsTrap(evs[0]);
      assert Checked(0, incall) == incall;
      forall i | 0 <= i < n - 1
        ensures IsTrap(evs[1..][i]) && (Checked(i, !incall) ==> evs[1..][i].access == AccessOk)
      {
        assert evs[1..][i] == evs[i + 1];
        assert Checked(i, !incall) == Checked(i + 1, incall);
      }
      AllowedTrapsSkipped(runobj, rep, evs[1..], n - 1, !incall, pageSize);
      assert evs[1..][n - 1..] == evs[n..];
    }
  }

  /**
   * The first refused answer on a checked trap ends the loop with RE and the
   * offending call or file: the loop never gets past it.
   */
  lemma DeniedOnCheckedTrap(runobj: Config, rep: Report, evs: seq<TraceEvent>, n: nat, pageSize: int)
    requires n < |evs|
    requires forall i :: 0 <= i < n ==> IsTrap(evs[i]) && (Checked(i, false) ==> evs[i].access == AccessOk)
    requires IsTrap(evs[n]) && Checked(n, false) && evs[n].access != AccessOk
    ensures TraceSpec(runobj, rep, evs, false, pageSize)
         == (Finished, DenyReport(rep, evs[n].usage, pageSize, evs[n].access, evs[n].regs.value))
    ensures TraceSpec(runobj, rep, evs, false, pageSize).1.judge == Some(RE)
  {
    AllowedTrapsSkipped(runobj, rep, evs, n, false, pageSize);
  }

  /** The first trap is never checked: a refusal there goes unnoticed. */
  lemma FirstTrapNotChecked(runobj: Config, rep: Report, evs: seq<TraceEvent>, pageSize: int)
    requires evs != [] && IsTrap(evs[0])
    ensures TraceSpec(runobj, rep, evs, false, pageSize) == TraceSpec(runobj, rep, evs[1..], true, pageSize)
  {
  }

  /**
   * Once the loop has returned, later events are never looked at; in
   * particular no access check follows a stop by another signal.
   */
  lemma {:induction false} TraceEndsForGood(runobj: Config, rep: Report, evs: seq<TraceEvent>,
                                            more: seq<TraceEvent>, incall: bool, pageSize: int)
    requires TraceSpec(runobj, rep, evs, incall, pageSize).0 != Waiting
    ensures TraceSpec(runobj, rep, evs + more, incall, pageSize) == TraceSpec(runobj, rep, evs, incall, pageSize)
  {
    assert (evs + more)[0] == evs[0];
    if !(evs[0].TraceStop? && IsTrap(evs[0]) && !(incall && evs[0].access != AccessOk)) {
    } else {
      assert (evs + more)[1..] == evs[1..] + more;
      TraceEndsForGood(runobj, rep, evs[1..], more, !incall, pageSize);
    }
  }

  /**
   * What traceLoop writes: a verdict exactly when it returns 0 and nothing
   * otherwise; re_call only on a refused syscall and re_file/re_file_flag
   * only on a refused file, both with RE; re_signum only on a stop by a
   * signal other than SIGTRAP, that signal, with its verdict.
   */
  lemma {:induction false} TraceWrites(runobj: Config, rep: Report, evs: seq<TraceEvent>, incall: bool, pageSize: int)
    ensures var (ret, r) := TraceSpec(runobj, rep, evs, incall, pageSize);
      (ret == Finished ==> r.judge.Some?) &&
      (ret != Finished ==> r == rep) &&
      (r.reCall != rep.reCall ==> r.judge == Some(RE) && r.reFile == rep.reFile && r.reSignum == rep.reSignum) &&
      (r.reFile != rep.reFile ==> r.judge == Some(RE) && r.reFile.Some? && r.reCall == rep.reCall) &&
      (r.reSignum != rep.reSignum ==> ret == Finished && r.reCall == rep.reCall && r.reFile == rep.reFile) &&
      (r.reSignum != rep.reSignum ==>
         r.judge == Some(SignalVerdict(r.reSignum, r.memoryUsed, runobj.memoryLimit)) &&
         exists k :: 0 <= k < |evs| && evs[k].TraceStop? && !IfExited(evs[k].status) &&
                     StopSig(evs[k].status) != SIGTRAP && StopSig(evs[k].status) == r.reSignum)
  {
    if evs != [] && IsTrap(evs[0]) && !(incall && evs[0].access != AccessOk) {
      TraceWrites(runobj, rep, evs[1..], !incall, pageSize);
      var r := TraceSpec(runobj, rep, evs, incall, pageSize).1;
      if r.reSignum != rep.reSignum {
        var k :| 0 <= k < |evs[1..]| && evs[1..][k].TraceStop? && !IfExited(evs[1..][k].status) &&
                 StopSig(evs[1..][k].status) != SIGTRAP && StopSig(evs[1..][k].status) == r.reSignum;
        assert evs[k + 1] == evs[1..][k];
      }
    } else if evs != [] && evs[0].TraceStop? && !IfExited(evs[0].status) && StopSig(evs[0].status) != SIGTRAP {
      assert StopSig(evs[0].status) == TraceSpec(runobj, rep, evs, incall, pageSize).1.reSignum;
    }
  }

  /**
   * A traced child killed outright (no signal stop, as with SIGKILL) is not
   * an exit; since the loop reads WSTOPSIG, which is 0 for such a status, it
   * is recorded as RE with re_signum 0.
   */
  lemma TracedKillReportsSignalZero(runobj: Config, rep: Report, evs: seq<TraceEvent>, incall: bool,
                                    pageSize: int, sig: int, core: bool)
    requires 0 < sig < 0x7f
    requires evs != [] && evs[0].TraceStop? && evs[0].status == Killed(sig, core)
    ensures TraceSpec(runobj, rep, evs, incall, pageSize).1.judge == Some(RE)
    ensures TraceSpec(runobj, rep, evs, incall, pageSize).1.reSignum == 0
  {
    DecodeKilled(sig, core);
  }

  // ---------------------------------------------------------------------------
  // runit: the child side

  /** The child's redirections of stdin, stdout and stderr, each skipped when its fd is -1. */
  function Redirects(runobj: Config): seq<Step>
  {
    Opt(runobj.fdIn != -1, Step(Dup2(runobj.fdIn, 0), "dup2 stdin failure!")) +
    Opt(runobj.fdOut != -1, Step(Dup2(runobj.fdOut, 1), "dup2 stdout failure")) +
    Opt(runobj.fdErr != -1, Step(Dup2(runobj.fdErr, 2), "dup2 stderr failure"))
  }

  /** setuid unless runner is -1, PTRACE_TRACEME when tracing, then execvp. */
  function Launch(runobj: Config): seq<Step>
  {
    Opt(runobj.runner != -1, Step(SetUid(runobj.runner), "setuid failure")) +
    Opt(runobj.trace, Step(TraceMe, "TRACEME failure")) +
    [Step(Execvp(runobj.args), "execvp failure")]
  }

  /** The child's set-up, in order: redirections, setResLimit, setuid, TRACEME, execvp. */
  function RunChildPlan(runobj: Config): seq<Step>
  {
    Redirects(runobj) + LimitPlan(runobj) + Launch(runobj)
  }

  lemma RedirectsFit(runobj: Config)
    ensures MessagesFit(Redirects(runobj), 90)
  {
    var s1 := Step(Dup2(runobj.fdIn, 0), "dup2 stdin failure!");
    var s2 := Step(Dup2(runobj.fdOut, 1), "dup2 stdout failure");
    var s3 := Step(Dup2(runobj.fdErr, 2), "dup2 stderr failure");
    assert |s1.failure| == 19 && |s2.failure| == 19 && |s3.failure| == 19;
    OptFits(runobj.fdIn != -1, s1, 90);
    OptFits(runobj.fdOut != -1, s2, 90);
    OptFits(runobj.fdErr != -1, s3, 90);
    MessagesFitAppend(Opt(runobj.fdIn != -1, s1), Opt(runobj.fdOut != -1, s2), 90);
    MessagesFitAppend(Opt(runobj.fdIn != -1, s1) + Opt(runobj.fdOut != -1, s2), Opt(runobj.fdErr != -1, s3), 90);
  }

  lemma LaunchFits(runobj: Config)
    ensures MessagesFit(Launch(runobj), 90)
  {
    var s5 := Step(SetUid(runobj.runner), "setuid failure");
    var s6 := Step(TraceMe, "TRACEME failure");
    var s7 := Step(Execvp(runobj.args), "execvp failure");
    assert |s5.failure| == 14 && |s6.failure| == 15 && |s7.failure| == 14;
    OptFits(runobj.runner != -1, s5, 90);
    OptFits(runobj.trace, s6, 90);
    OptFits(true, s7, 90);
    MessagesFitAppend(Opt(runobj.runner != -1, s5), Opt(runobj.trace, s6), 90);
    MessagesFitAppend(Opt(runobj.runner != -1, s5) + Opt(runobj.trace, s6), [s7], 90);
  }

  /** Every message the child can write is a non-empty C string that fits the parent's 90-byte read. */
  lemma RunChildMessagesFit(runobj: Config)
    ensures MessagesFit(RunChildPlan(runobj), 90)
  {
    RedirectsFit(runobj);
    LimitMessagesFit(runobj, 90);
    LaunchFits(runobj);
    MessagesFitAppend(Redirects(runobj), LimitPlan(runobj), 90);
    MessagesFitAppend(Redirects(runobj) + LimitPlan(runobj), Launch(runobj), 90);
  }

  /** The child's three redirections, each skipped when its descriptor is -1. */
  method Redirect(runobj: Config, ok: Call -> bool) returns (calls: seq<Call>, err: Option<string>)
    ensures Outcome(calls, err) == Perform(Redirects(runobj), ok)
  {
    var s1 := Step(Dup2(runobj.fdIn, 0), "dup2 stdin failure!");
    var s2 := Step(Dup2(runobj.fdOut, 1), "dup2 stdout failure");
    var s3 := Step(Dup2(runobj.fdErr, 2), "dup2 stderr failure");
    var o3 := Opt(runobj.fdErr != -1, s3);
    assert Redirects(runobj) == Opt(runobj.fdIn != -1, s1) + (Opt(runobj.fdOut != -1, s2) + (o3 + []));
    PerformOpt(runobj.fdIn != -1, s1, Opt(runobj.fdOut != -1, s2) + (o3 + []), ok);
    PerformOpt(runobj.fdOut != -1, s2, o3 + [], ok);
    PerformOpt(runobj.fdErr != -1, s3, [], ok);
    calls := [];
    if runobj.fdIn != -1 {
      calls := calls + [Dup2(runobj.fdIn, 0)];
      if !ok(Dup2(runobj.fdIn, 0)) {
        return calls, Some("dup2 stdin failure!");
      }
    }
    if runobj.fdOut != -1 {
      calls := calls + [Dup2(runobj.fdOut, 1)];
      if !ok(Dup2(runobj.fdOut, 1)) {
        return calls, Some("dup2 stdout failure");
      }
    }
    if runobj.fdErr != -1 {
      calls := calls + [Dup2(runobj.fdErr, 2)];
      if !ok(Dup2(runobj.fdErr, 2)) {
        return calls, Some("dup2 stderr failure");
      }
    }
    return calls, None;
  }

  /** setuid unless runner is -1, TRACEME when tracing, then execvp. */
  method DropAndExec(runobj: Config, ok: Call -> bool) returns (calls: seq<Call>, err: Option<string>)
    ensures Outcome(calls, err) == Perform(Launch(runobj), ok)
  {
    var s5 := Step(SetUid(runobj.runner), "setuid failure");
    var s6 := Step(TraceMe, "TRACEME failure");
    var s7 := Step(Execvp(runobj.args), "execvp failure");
    assert Launch(runobj) == Opt(runobj.runner != -1, s5) + (Opt(runobj.trace, s6) + ([s7] + []));
    PerformOpt(runobj.runner != -1, s5, Opt(runobj.trace, s6) + (Opt(true, s7) + []), ok);
    PerformOpt(runobj.trace, s6, [s7] + [], ok);
    PerformCons(s7, [], ok);
    calls := [];
    if runobj.runner != -1 {
      calls := calls + [SetUid(runobj.runner)];
      if !ok(SetUid(runobj.runner)) {
        return calls, Some("setuid failure");
      }
    }
    if runobj.trace {
      calls := calls + [TraceMe];
      if !ok(TraceMe) {
        return calls, Some("TRACEME failure");
      }
    }
    calls := calls + [Execvp(runobj.args)];
    if !ok(Execvp(runobj.args)) {
      return calls, Some("execvp failure");
    }
    return calls, None;
  }

  /**
   * The child side of runit, up to execvp. `calls` are the calls made, in
   * order; `err` is what is written to the error pipe before _exit, None when
   * execvp replaced the process image.
   */
  method RunChild(runobj: Config, ok: Call -> bool) returns (calls: seq<Call>, err: Option<string>)
    ensures Outcome(calls, err) == Perform(RunChildPlan(runobj), ok)
  {
    PerformAppend(Redirects(runobj) + LimitPlan(runobj), Launch(runobj), ok);
    PerformAppend(Redirects(runobj), LimitPlan(runobj), ok);
    calls, err := Redirect(runobj, ok);
    if err.Some? {
      return;
    }
    var rc, lastLimitErr, limitCalls := SetResLimit(runobj, ok);
    AfterAfter(calls, limitCalls, Perform(Launch(runobj), ok));
    calls := calls + limitCalls;
    if rc == -1 {
      return calls, lastLimitErr;
    }
    var launchCalls;
    launchCalls, err := DropAndExec(runobj, ok);
    calls := calls + launchCalls;
  }

  // ---------------------------------------------------------------------------
  // runit: the parent side

  /**
   * What runit depends on besides the request: whether pipe2 and vfork
   * succeed, which of the child's calls the kernel accepts, what the one
   * wait4 of waitExit returns, the stream of stops traceLoop sees, and the
   * page size.
   */
  datatype Env = Env(pipeOk: bool, forkOk: bool, kernel: Call -> bool, wait: WaitResult,
                     events: seq<TraceEvent>, pageSize: int)

  /**
   * What the parent reads from the error pipe: at most 90 bytes of the
   * child's message, nothing when execvp went through.
   */
  function PipeMessage(childErr: Option<string>): (got: string)
    ensures childErr.None? ==> got == []
    ensures childErr.Some? ==> got <= childErr.value && |got| == Min(90, |childErr.value|)
  {
    if childErr.Some? then Read(childErr.value, 90) else []
  }

  /**
   * The parent's read of the error pipe into a zeroed 100-byte buffer, and
   * the string raised from it when the read returned something.
   */
  method ReadErrorPipe(childErr: Option<string>) returns (got: string)
    requires childErr.Some? ==> '\0' !in childErr.value
    ensures got == PipeMessage(childErr)
  {
    var errbuffer := new char[100](_ => '\0');
    var r := 0;
    if childErr.Some? {
      r := ReadInto(errbuffer, childErr.value, 90);
    }
    if r > 0 {
      var m := Read(childErr.value, 90);
      assert '\0' !in m by {
        assert forall k :: 0 <= k < |m| ==> m[k] == childErr.value[k];
      }
      CStringOfTerminated(errbuffer[..], m);
      return CString(errbuffer[..]);
    }
    return [];
  }

  function RunitSpec(runobj: Config, rep: Report, env: Env): (Ret, Report)
  {
    if !env.pipeOk then (Failed("run :pipe2(fd_err) failure"), rep)
    else if !env.forkOk then (Failed("run : vfork failure"), rep)
    else
      var got := PipeMessage(Perform(RunChildPlan(runobj), env.kernel).failure);
      if |got| > 0 then (Failed(got), rep)
      else if runobj.trace then TraceSpec(runobj, rep, env.events, false, env.pageSize)
      else WaitExitSpec(runobj, rep, env.wait)
  }

  /**
   * runit: pipe2, vfork, the child's set-up, then the parent's read of the
   * error pipe into a zeroed 100-byte buffer and the chosen monitor.
   * `childCalls` are the calls the child made.
   */
  method Runit(runobj: Config, rst: RunResult, env: Env) returns (ret: Ret, childCalls: seq<Call>)
    modifies rst
    ensures (ret, rst.Snapshot()) == RunitSpec(runobj, old(rst.Snapshot()), env)
    ensures childCalls == if env.pipeOk && env.forkOk then Perform(RunChildPlan(runobj), env.kernel).calls else []
  {
    childCalls := [];
    if !env.pipeOk {
      return Failed("run :pipe2(fd_err) failure"), childCalls;
    }
    if !env.forkOk {
      return Failed("run : vfork failure"), childCalls;
    }
    var err;
    childCalls, err := RunChild(runobj, env.kernel);
    RunChildMessagesFit(runobj);
    FailureFits(RunChildPlan(runobj), env.kernel, 90);
    var got := ReadErrorPipe(err);
    if |got| > 0 {
      return Failed(got), childCalls;
    }
    if runobj.trace {
      ret := TraceLoop(runobj, rst, env.events, env.pageSize);
    } else {
      ret := WaitExit(runobj, rst, env.wait);
    }
  }

  /**
   * A failed pipe2, vfork or child set-up step raises exactly that step's
   * message and leaves the result record alone.
   */
  lemma RunitSetupFailure(runobj: Config, rep: Report, env: Env)
    requires !env.pipeOk || !env.forkOk || Perform(RunChildPlan(runobj), env.kernel).failure.Some?
    ensures RunitSpec(runobj, rep, env).1 == rep
    ensures RunitSpec(runobj, rep, env).0 ==
      if !env.pipeOk then Failed("run :pipe2(fd_err) failure")
      else if !env.forkOk then Failed("run : vfork failure")
      else Failed(Perform(RunChildPlan(runobj), env.kernel).failure.value)
  {
    RunChildMessagesFit(runobj);
    FailureFits(RunChildPlan(runobj), env.kernel, 90);
  }

  /** When the child reaches its program, `trace` alone picks the monitor. */
  lemma RunitMonitors(runobj: Config, rep: Report, env: Env)
    requires env.pipeOk && env.forkOk
    requires forall c :: c in Calls(RunChildPlan(runobj)) ==> env.kernel(c)
    ensures RunitSpec(runobj, rep, env) ==
      if runobj.trace then TraceSpec(runobj, rep, env.events, false, env.pageSize)
      else WaitExitSpec(runobj, rep, env.wait)
  {
    var plan := RunChildPlan(runobj);
    PerformStopsAtFirstRefusal(plan, env.kernel);
    forall j | 0 <= j < |plan| ensures env.kernel(plan[j].call) {
      assert Calls(plan)[j] == plan[j].call;
    }
  }

  /**
   * run() returns a result dictionary exactly when runit returns 0, and the
   * dictionary then holds a verdict; re_call, -1 in a fresh record, is set
   * only by a refused syscall under tracing, with RE.
   */
  lemma RunitResult(runobj: Config, env: Env)
    ensures var (ret, r) := RunitSpec(runobj, Fresh, env);
      (ret == Finished ==> r.judge.Some?) &&
      (ret != Finished ==> r == Fresh) &&
      (r.reCall != -1 ==> runobj.trace && r.judge == Some(RE))
  {
    TraceWrites(runobj, Fresh, env.events, false, env.pageSize);
  }
}

=== FILE: special.dfy ===
/**
 * special_judge: run a checker program with stdout captured, and turn its
 * wait status into either nothing (accepted) or the checker's verdict text.
 */
module Special {
  import opened Wrappers
  import opened WaitStatus
  import opened Kernel
  import opened Lorun
  import opened CBuffer
  import opened Capture
  import Compile

  /** The malloc'd buffer, and the most the parent reads into it. */
  const BufferSize := 110
  const ReadMax := 100

  const STDOUT_FILENO := 1

  /**
   * The message special_judge leaves in its buffer, or None for NULL. Status
   * 256 (exit code 1, "wrong answer") is looked at before the signal: it
   * gives the checker's first 100 bytes of output.
   */
  function SpecialSpec(spjobj: Config, env: CaptureEnv): (msg: Option<string>)
    ensures msg.Some? ==> |msg.value| <= ReadMax
  {
    if !env.pipeOk then Some("special: pip(fd_err) failure")
    else if !env.forkOk then Some("special : vfork failure")
    else if env.wait.WaitFailed? then Some("wait4 failure")
    else
      var status := env.wait.status;
      if status != 0 || IfSignaled(status) then
        if status == 256 then Some(Read(env.captured, ReadMax))
        else if LimitSignal(TermSig(status)) then Some("special error\n")
        else Some(Read(env.captured, ReadMax))
      else None
  }

  /**
   * special_judge. Returns null for NULL; otherwise a fresh 110-byte buffer
   * holding the message and a terminator after it (the read count is at most
   * 100, so the terminator's index is in bounds). `childCalls` are the calls
   * of the checker's child.
   */
  method SpecialJudge(spjobj: Config, env: CaptureEnv) returns (outbuffer: array?<char>, childCalls: seq<Call>)
    ensures outbuffer == null <==> SpecialSpec(spjobj, env).None?
    ensures outbuffer != null ==>
      fresh(outbuffer) && outbuffer.Length == BufferSize &&
      var m := SpecialSpec(spjobj, env).value;
      outbuffer[..|m|] == m && outbuffer[|m|] == '\0'
    ensures childCalls == if env.pipeOk && env.forkOk
      then Perform(CapturePlan(spjobj, env.pipeWrite, STDOUT_FILENO), env.kernel).calls else []
  {
    var buf := new char[BufferSize];
    childCalls := [];
    if !env.pipeOk {
      Strcpy(buf, "special: pip(fd_err) failure");
      return buf, childCalls;
    }
    if !env.forkOk {
      Strcpy(buf, "special : vfork failure");
      return buf, childCalls;
    }
    var childErr;
    childCalls, childErr := CaptureChild(spjobj, env.pipeWrite, STDOUT_FILENO, env.kernel);
    if env.wait.WaitFailed? {
      Strcpy(buf, "wait4 failure");
      return buf, childCalls;
    }
    var status := env.wait.status;
    if status != 0 || IfSignaled(status) {
      if status == 256 {
        var r := ReadInto(buf, env.captured, ReadMax);
        buf[r] := '\0';
        return buf, childCalls;
      }
      var sig := TermSig(status);
      if sig == SIGSEGV || sig == SIGALRM || sig == SIGXCPU {
        Strcpy(buf, "special error\n");
      } else {
        var r := ReadInto(buf, env.captured, ReadMax);
        buf[r] := '\0';
      }
      return buf, childCalls;
    }
    return null, childCalls;
  }

  /** special_judge returns NULL exactly when pipe, vfork and wait4 succeed and the status is 0. */
  lemma SpecialAcceptsIff(spjobj: Config, env: CaptureEnv)
    ensures SpecialSpec(spjobj, env).None? <==>
      env.pipeOk && env.forkOk && env.wait.Waited? && env.wait.status == 0
  {
  }

  /** A checker that exits with code 1 gets its first 100 bytes of output passed on. */
  lemma SpecialExitOne(spjobj: Config, env: CaptureEnv, ru: Rusage)
    requires env.pipeOk && env.forkOk && env.wait == Waited(Exited(1), ru)
    ensures SpecialSpec(spjobj, env) == Some(Read(env.captured, ReadMax))
  {
  }

  /** A checker killed by SIGSEGV, SIGALRM or SIGXCPU gives the fixed message. */
  lemma SpecialKilledByLimit(spjobj: Config, env: CaptureEnv, sig: int, core: bool, ru: Rusage)
    requires 0 < sig < 0x7f && LimitSignal(sig)
    requires env.pipeOk && env.forkOk && env.wait == Waited(Killed(sig, core), ru)
    ensures SpecialSpec(spjobj, env) == Some("special error\n")
  {
    DecodeKilled(sig, core);
  }

  /**
   * The `status == 256` test changes nothing: status 256 has term signal 0,
   * so every non-zero exit code, 1 included, gets the same first 100 bytes of
   * output from the switch's default branch.
   */
  lemma ExitOneTestRedundant(spjobj: Config, env: CaptureEnv, code: int, ru: Rusage)
    requires 0 < code < 0x100
    ensures SpecialSpec(spjobj, env.(wait := Waited(Exited(code), ru))) ==
            SpecialSpec(spjobj, env.(wait := Waited(256, ru)))
  {
    DecodeExited(code);
    assert TermSig(256) == 0;
  }

  /**
   * The special judge and compileit classify a wait status alike: NULL for
   * the same statuses, their fixed messages for the same limit signals, and
   * elsewhere the child's output, the special judge's being a prefix of
   * compileit's.
   */
  lemma SameClassificationAsCompile(spjobj: Config, env: CaptureEnv)
    requires env.pipeOk && env.forkOk && env.wait.Waited?
    ensures SpecialSpec(spjobj, env).None? <==> Compile.CompileSpec(spjobj, env).None?
    ensures var status := env.wait.status;
      status != 0 && LimitSignal(TermSig(status)) ==>
        SpecialSpec(spjobj, env) == Some("special error\n") &&
        Compile.CompileSpec(spjobj, env) == Some("Compile-time error\n")
    ensures var status := env.wait.status;
      status != 0 && !LimitSignal(TermSig(status)) ==>
        SpecialSpec(spjobj, env) == Some(Read(env.captured, ReadMax)) &&
        Compile.CompileSpec(spjobj, env) == Some(Read(env.captured, Compile.ReadMax)) &&
        SpecialSpec(spjobj, env).value <= Compile.CompileSpec(spjobj, env).value
  {
  }
}

=== FILE: wait_status.dfy ===
/**
 * The wait status reported by wait4 and waitpid, decoded as glibc's
 * <sys/wait.h> macros do. A status is a 16-bit word: the low seven bits hold
 * the terminating signal (0 for a normal exit, 0x7f for a stop), bit 7 the
 * core-dump flag and the high byte the exit code or the stopping signal.
 */
module WaitStatus {

  type Status = s: int | 0 <= s < 0x1_0000

  // Linux signal numbers used by the runner.
  const SIGTRAP := 5
  const SIGSEGV := 11
  const SIGALRM := 14
  const SIGXCPU := 24

  /** WTERMSIG(s) == s & 0x7f */
  function TermSig(s: Status): int { s % 0x80 }

  /** WEXITSTATUS(s) == (s >> 8) & 0xff */
  function ExitCode(s: Status): int { (s / 0x100) % 0x100 }

  /** WSTOPSIG(s) is defined by glibc exactly as WEXITSTATUS(s). */
  function StopSig(s: Status): int { ExitCode(s) }

  /** WIFEXITED(s) == (WTERMSIG(s) == 0) */
  predicate IfExited(s: Status) { TermSig(s) == 0 }

  /** WIFSIGNALED(s) == (((signed char) ((s & 0x7f) + 1) >> 1) > 0) */
  predicate IfSignaled(s: Status) { 0 < TermSig(s) < 0x7f }

  /** WIFSTOPPED(s) == ((s & 0xff) == 0x7f) */
  predicate IfStopped(s: Status) { s % 0x100 == 0x7f }

  /** The status of a process that called exit(code). */
  function Exited(code: int): Status
    requires 0 <= code < 0x100
  {
    code * 0x100
  }

  /** The status of a process killed by `sig`, with or without a core dump. */
  function Killed(sig: int, core: bool): Status
    requires 0 < sig < 0x7f
  {
    sig + if core then 0x80 else 0
  }

  /** The status of a traced process stopped by `sig`. */
  function Stopped(sig: int): Status
    requires 0 <= sig < 0x100
  {
    sig * 0x100 + 0x7f
  }

  /** Decoding an encoded status gives back what was encoded, and the kinds are exclusive. */
  lemma DecodeExited(code: int)
    requires 0 <= code < 0x100
    ensures IfExited(Exited(code)) && ExitCode(Exited(code)) == code
    ensures !IfSignaled(Exited(code)) && !IfStopped(Exited(code))
  {
  }

  lemma DecodeKilled(sig: int, core: bool)
    requires 0 < sig < 0x7f
    ensures IfSignaled(Killed(sig, core)) && TermSig(Killed(sig, core)) == sig
    ensures !IfExited(Killed(sig, core)) && !IfStopped(Killed(sig, core))
    ensures StopSig(Killed(sig, core)) == 0
  {
  }

  lemma DecodeStopped(sig: int)
    requires 0 <= sig < 0x100
    ensures IfStopped(Stopped(sig)) && StopSig(Stopped(sig)) == sig
    ensures !IfExited(Stopped(sig)) && !IfSignaled(Stopped(sig))
  {
  }

  /**
   * The status 256 is a normal exit with code 1, and it is the only status
   * with a clear low byte that is. (With bit 7 set, 0x180 also decodes as
   * "exited with code 1", but the kernel sets that bit only for signals.)
   */
  lemma ExitOneIs256(s: Status)
    ensures s == 256 ==> IfExited(s) && ExitCode(s) == 1
    ensures IfExited(s) && ExitCode(s) == 1 && s % 0x100 == 0 ==> s == 256
  {
    assert s == 0x100 * (s / 0x100) + s % 0x100;
  }
}

=== FILE: wrappers.dfy ===
/** A small Option type for values the C code represents with NULL. */
module Wrappers {
  datatype Option<+T> = None | Some(value: T)
}
